=== FILE: README.md ===
# Scholarly Citation-Oriented Paper Explorer: citation network and retrieval expansion

A Dafny model of the two pure-logic components of the paper explorer's server.

- **The citation network** (`server/services/citationNetwork.py`). This is a directed graph in which each citing paper points to the papers it cites, plus a map from paper to publication year. The model covers:
  - adding papers and citations;
  - building the network from a metadata dict;
  - the neighbourhood queries;
  - the stable "most cited" ranking;
  - the weighted graph that `weighted_pagerank` builds before it calls the graph library's PageRank. Each citation gets a weight of 1.0, times a penalty for a self-citation, times a recency factor `1 + boost / (1 + max(current_year - year, 0))` when the cited paper has a year.
- **The retrieval workflow** (`server/services/retrieval.py`). Chunks come from a vector store. While fewer than `k_docs` distinct document ids have been seen, the workflow searches again at breadth `k + 25` and appends the results. It then groups the chunks by document id. `retrieval_service` ranks the groups by chunk count and keeps the first `k_docs`.

Modules, one per component:

| module | file | contents |
|---|---|---|
| `Wrappers` | `wrappers.dfy` | `Option` |
| `Sequences` | `sequences.dfy` | Python's `s[:n]` slice, filtering, de-duplication |
| `StableSort` | `stable_sort.dfy` | `sorted(..., reverse=True)`: a stable sort into descending key order, with its permutation, sortedness and stability lemmas |
| `CitationNetwork` | `citation_network.dfy` | the graph and its operations |
| `CitationFixture` | `citation_fixture.dfy` | the three-paper network of the test suite |
| `WeightedCitations` | `weighted_citations.dfy` | edge weights and the weighted graph |
| `Retrieval` | `retrieval.dfy` | the retrieval state, the node functions, `should_expand`, the aggregation |
| `RetrievalGraph` | `retrieval_graph.dfy` | the workflow as an explicit state machine, and `retrieval_service` |

Modelling choices:

- **Nodes** are a duplicate-free `seq` in insertion order. That order decides ties in `get_most_cited_papers`.
- **Edges** are a `set`, because adding an existing edge changes nothing.
- **Years** are a `map`.
- **Weights** are exact `real`s.
- **A paper that is not a node.** The graph library raises an error when asked for the neighbours of such a paper, and returns a degree view instead of a number when asked for its in-degree. The model answers `None` in all three cases.
- **The similarity search** is a function parameter `(query, breadth) -> seq<Chunk>`.
- **The workflow graph** is an enumeration of nodes with a transition function. A fuel budget bounds it:
  - each entry into `expand_k` spends one unit;
  - when the budget is spent, a decision to expand goes to `aggregate_documents` instead.

  A run therefore always ends by aggregating what it collected.

Behaviour of the code worth noting:

- **Papers without citations get no PageRank score.** The weighted graph receives only edges (`citationNetwork.py:59-75`), so a paper with no citations in either direction is not in it and gets no score. The test of `server/__tests__/test_citation_network.py:107-111` expects a score for every paper; it holds there only because every paper of the fixture takes part in a citation. `WeightedCitations.BuildWeightedGraph` states the code's behaviour.
- **`retrieval_service` never passes `k_docs` into the workflow.** It passes only `query` and `k` (`retrieval.py:117-120`), so `should_expand`'s `state["k_docs"]` has nothing to read. The model gives `k_docs` to the workflow explicitly, with the same value the service uses for truncation.
- **The initial chunk list does not matter.** The service does not set it, and `initial_retrieval` overwrites it anyway; see `Retrieval.InitialRetrievalReplaces`.
- **`should_expand` and `aggregate_documents` count documents differently.** `should_expand` counts a missing `doc_id` as a value of its own (`None`). `aggregate_documents` files such chunks under the key `"unknown"`, which they share with chunks whose id really is `"unknown"`. `Retrieval.GroupCount` states the difference exactly.

## Model

| member | source | states |
|---|---|---|
| `CitationNetwork.Empty` | server/services/citationNetwork.py:11-13 | A new network has no papers and no citations and is well formed. |
| `CitationNetwork.AddNode` | server/services/citationNetwork.py:16 | The paper becomes a node. Existing nodes keep their order. Edges and years are untouched. No node is duplicated. |
| `CitationNetwork.AddPaper` | server/services/citationNetwork.py:15-18 | The paper becomes a node. Its year is recorded exactly when the year is truthy (neither `None` nor 0). No other year is touched, no recorded year is cleared, and the network stays well formed. |
| `CitationNetwork.AddCitation` | server/services/citationNetwork.py:20-22 | Both endpoints become nodes (citing first). Exactly the edge citing -> cited is added. Years are unchanged. The network stays well formed. |
| `CitationNetwork.AddCitationIdempotent` | server/services/citationNetwork.py:20-22 | Adding the same citation twice gives the same network as adding it once. |
| `CitationNetwork.GetCitations` | server/services/citationNetwork.py:24-25 | Defined exactly for nodes. `q` is listed exactly when the edge p -> q exists. Every listed paper is a node. |
| `CitationNetwork.GetCitedBy` | server/services/citationNetwork.py:27-28 | Defined exactly for nodes. `q` is listed exactly when the edge q -> p exists. Every listed paper is a node. |
| `CitationNetwork.CitationsMirrorCitedBy` | server/services/citationNetwork.py:24-28 | `q` is among the citations of `p` exactly when `p` is among the papers citing `q`, and exactly when the edge p -> q exists. |
| `CitationNetwork.GetAllPapers` | server/services/citationNetwork.py:30-31 | Lists exactly the papers of the network, each once. Every endpoint of a citation is listed, and so is a paper without any citation. |
| `CitationNetwork.AllPapersOfBuild` | server/services/citationNetwork.py:129-134 | After `BuildFromPdfs` on a new network, the papers listed are exactly the metadata keys and the references, each once. |
| `CitationNetwork.GetCitationCount` | server/services/citationNetwork.py:33-34 | Defined exactly for nodes, and equal to the number of distinct papers citing it, so a self-citation counts once. |
| `CitationNetwork.AddCitationCount` | server/services/citationNetwork.py:20-22 | A citation raises the cited paper's count by one exactly when the citation is new. No other paper's count changes. |
| `CitationNetwork.GetMostCitedPapers` | server/services/citationNetwork.py:36-41 | The result has `min(n, #papers)` entries, with Python's slice semantics for negative `n`. Each entry is a (paper, in-degree) pair. In-degrees never increase along the list. Papers with equal in-degree keep insertion order. No paper appears twice. No paper left out has a higher in-degree than one listed. |
| `CitationNetwork.AddReferences` | server/services/citationNetwork.py:132-134 | Each reference becomes a node, and exactly one citation from the paper to each reference is added. Years are unchanged. The network stays well formed. The order of the new nodes is stated by `AddReferencesOrder`. |
| `CitationNetwork.AddReferencesOrder` | server/services/citationNetwork.py:132-134 | In a well-formed network that holds the citing paper, the references are appended in list order, each at its first mention and only if it is not yet a node. |
| `CitationNetwork.AddEntry` | server/services/citationNetwork.py:129-134 | One metadata entry records the paper's year exactly when it is truthy. No other year changes. |
| `CitationNetwork.BuildFromPdfsSpec` | server/services/citationNetwork.py:113-134 | `BuildFromPdfs` adds the entries in dict order. The nodes after building are exactly the earlier nodes plus every key and every reference, with the earlier nodes in front in their order. The edges are exactly the earlier edges plus one per (paper, reference) pair. No year is lost. Well-formedness is kept. The order of the nodes is stated by `BuildFromPdfsOrder`. |
| `CitationNetwork.BuildFromPdfsOrder` | server/services/citationNetwork.py:129-134 | In a well-formed network, the new papers are appended in the order the loop meets them: each key, then its references, entry after entry, each at its first mention and only if it is new. This order decides ties in `get_most_cited_papers`. |
| `CitationNetwork.BuildFromPdfsRecordsYears` | server/services/citationNetwork.py:129-130 | After building, every key whose metadata has a truthy year carries that year. |
| `CitationNetwork.BuildFromPdfsKeepsYears` | server/services/citationNetwork.py:129-134 | After building, every paper with no truthy year in the metadata keeps the year it had before, and gains none. |
| `CitationFixture.FixtureNetwork` | server/__tests__/test_citation_network.py:14-30 | The test fixture builds nodes A, B, C, the edges A->B, A->C and B->C, and the years 2023, 2019, 2015. |
| `CitationFixture.FixtureQueries` | server/__tests__/test_citation_network.py:68-96 | On the fixture, the papers are {A, B, C}, A cites {B, C}, C is cited by {A, B}, C's count is 2, and the top paper for `n=1` is `[("paper_C", 2)]`. |
| `WeightedCitations.Age` | server/services/citationNetwork.py:71 | A paper's age is its distance in years to the current year. Future years clamp to 0. |
| `WeightedCitations.RecencyFactor` | server/services/citationNetwork.py:72 | The factor's excess over 1, multiplied by `1 + age`, gives back the boost, which pins it to `1 + boost / (1 + age)` for every age. For a non-negative boost it lies in `[1, 1 + boost]`, and it equals `1 + boost` at age 0. |
| `WeightedCitations.RecencyFactorDecreasing` | server/services/citationNetwork.py:68-73 | For a positive boost, an older paper gets a strictly smaller factor. |
| `WeightedCitations.RecencyFactorAntitone` | server/services/citationNetwork.py:68-73 | For a non-negative boost, an older paper never gets a larger factor. |
| `WeightedCitations.EdgeWeight` | server/services/citationNetwork.py:61-73 | The weight is 1.0 for a citation of another paper without a year, and `penalty` for a self-citation without a year. When the cited paper has a truthy year, the weight is that base times the recency factor of the paper's age. With a non-negative boost, a non-self edge weighs between 1 and `1 + boost`, the weight is positive for a positive penalty, and a cited paper of this year or later gets the full `1 + boost` factor. |
| `WeightedCitations.SelfCitationPenalty` | server/services/citationNetwork.py:64-66 | A self-citation weighs exactly `penalty` times what a citation of the same paper from another paper weighs. |
| `WeightedCitations.RecencyOrder` | server/services/citationNetwork.py:68-73 | Among non-self citations with a non-negative boost, citing a more recent paper never weighs less. |
| `WeightedCitations.BuildWeightedGraph` | server/services/citationNetwork.py:59-75 | The weighted graph has exactly the citations as edges, each with its edge weight. Its nodes are exactly the papers incident to some citation, so a network without citations yields an empty graph. All weights are positive for a non-negative boost and a positive penalty. |
| `StableSort.SortDescSpec` | server/services/citationNetwork.py:37-41 | `sorted(..., reverse=True)` returns a permutation of its input in non-increasing key order. |
| `StableSort.SortStable` | server/services/retrieval.py:125-129 | The sort is stable: for every key value, the elements with that key appear in the output in input order. |
| `StableSort.TopN` | server/services/retrieval.py:125-131 | Sorting then slicing with `[:n]` gives the Python-slice number of elements. They are in non-increasing key order, all taken from the input, and ties keep input order. No element left out outranks one kept. |
| `Sequences.Take` | server/services/retrieval.py:131 | `s[:n]` is a prefix of `s` of Python-slice length. A negative `n` counts from the end. |
| `Retrieval.InitialRetrievalReplaces` | server/services/retrieval.py:27-33 | In `InitialRetrieval`, the first search, at breadth `k`, replaces the chunk list. Whatever list the state held before makes no difference. Nothing else changes. |
| `Retrieval.ExpandK` | server/services/retrieval.py:35-41 | `expanded_k` becomes `k + 25`. `k` and every other field stay as they were. |
| `Retrieval.ExpandKIdempotent` | server/services/retrieval.py:40 | Expanding twice equals expanding once, so the breadth does not grow from round to round. |
| `Retrieval.ExpandedRetrievalAppends` | server/services/retrieval.py:43-50 | In `ExpandedRetrieval`, the old chunk list is a prefix of the new one. The lengths add. The suffix is exactly the new search result at breadth `expanded_k`, duplicates kept. Nothing else changes. |
| `Retrieval.ShouldExpand` | server/services/retrieval.py:65-76 | The decision is "expand" exactly when walking the list of the chunks' `doc_id` values (a missing id counting as one value) finds fewer than `k_docs` first appearances. |
| `Retrieval.ShouldExpandCountsIds` | server/services/retrieval.py:65-76 | `ShouldExpand` says "expand" exactly when the list of the chunks' `doc_id` values (a missing id counting as one value), with repeats dropped, is shorter than `k_docs`, and "enough" otherwise. |
| `Retrieval.EnoughIsStable` | server/services/retrieval.py:49-76 | Appending chunks never turns "enough" back into "expand". |
| `Retrieval.RepeatAddsNoIds` | server/services/retrieval.py:69-72 | Appending the same search result a second time adds no new document id. |
| `Retrieval.AddChunkSpec` | server/services/retrieval.py:60-61 | Filing one chunk extends exactly the group of its key, or opens one group for a new key at the end. It leaves every other group alone and adds exactly one chunk in total. |
| `Retrieval.AggregateSpec` | server/services/retrieval.py:52-63 | `Aggregate` partitions the chunks. There is one group per distinct key (`doc_id`, or `"unknown"`), in order of first appearance. Each group holds exactly the chunks with its key, in retrieval order, and no group is empty. Group sizes add up to the number of chunks. |
| `Retrieval.AggregateDocuments` | server/services/retrieval.py:52-63 | The node changes only the documents. |
| `Retrieval.AggregateKeys` | server/services/retrieval.py:57-72 | The group keys are exactly the ids `should_expand` counted, with a missing id mapped to `"unknown"`, and there are as many groups as such keys. |
| `Retrieval.GroupCount` | server/services/retrieval.py:57-72 | The number of groups equals the distinct-id count of `should_expand`, minus one exactly when both a missing id and the literal id `"unknown"` occur. |
| `Retrieval.ShouldExpandByGroups` | server/services/retrieval.py:52-76 | `should_expand` says "expand" exactly when the number of groups the aggregation would build, plus one for such a collision, is below `k_docs`. |
| `RetrievalGraph.Next` | server/services/retrieval.py:87-105 | Every transition is an edge of the source graph: initial -> {expand_k, aggregate}, expand_k -> expanded_retrieval, expanded_retrieval -> {expand_k, aggregate}, aggregate -> END. Entering `expand_k` needs fuel. |
| `RetrievalGraph.ExecuteFollowsGraph` | server/services/retrieval.py:85-105 | Every run of `Execute` starts at its node, ends at END, and takes only edges of the graph. |
| `RetrievalGraph.RoundsChunks` | server/services/retrieval.py:35-50 | After `n` rounds of `expand_k` and `expanded_retrieval`, the chunks are the earlier chunks followed by `n` copies of the search at breadth `k + 25`. Query, `k` and `k_docs` are unchanged. |
| `RetrievalGraph.LoopRounds` | server/services/retrieval.py:96-104 | The expansion loop runs at least one and at most `fuel + 1` expanded retrievals. |
| `RetrievalGraph.LoopState` | server/services/retrieval.py:96-105 | The loop ends by aggregating the chunks of exactly the rounds it ran. |
| `RetrievalGraph.ExpansionDecisions` | server/services/retrieval.py:97-104 | The loop starts each further round only because `should_expand` said "expand". It stops with fuel left only after "enough". |
| `RetrievalGraph.LoopDecisions` | server/services/retrieval.py:96-104 | Entered after "expand", the loop saw "expand" before each of its rounds, counting the chunks held then (the earlier chunks plus one copy of the search at `k + 25` per round). It saw "enough" when it stopped with fuel left. |
| `RetrievalGraph.RetrieveOutcome` | server/services/retrieval.py:85-107 | A whole run of `Retrieve` (the compiled graph's `invoke`) performs at most `fuel` expanded retrievals. Its chunks are the first search followed by that many copies of the search at `k + 25`. Each round ran because the target was not met. A run that stopped with fuel left met the target. The documents are the aggregation of all chunks. Query, `k` and `k_docs` are unchanged. |
| `RetrievalGraph.EnoughAtOnce` | server/services/retrieval.py:87-94 | If the first search already finds `k_docs` distinct ids, no expanded retrieval runs: the trace is initial, aggregate, END. |
| `RetrievalGraph.UncappedExpansionNeverEnough` | server/services/retrieval.py:40 | If one expansion round does not reach `k_docs` distinct ids, no number of rounds does, because every round repeats the same search. |
| `RetrievalGraph.StalledRunSpendsAllFuel` | server/services/retrieval.py:97-105 | In that stalled case, the fuel-bounded workflow runs exactly `fuel` rounds and then aggregates everything it collected. |
| `RetrievalGraph.RankDocuments` | server/services/retrieval.py:125-131 | The ranking returns the first `k_docs` groups (Python slice) by chunk count, highest first, with ties in first-appearance order. Each is a group of the aggregation. None left out has more chunks than one kept. |
| `RetrievalGraph.RankDocumentsDistinct` | server/services/retrieval.py:125-131 | Ranking never repeats a document id that the aggregation did not repeat. |
| `RetrievalGraph.RankAggregated` | server/services/retrieval.py:122-131 | Ranking an aggregation gives distinct ids. Each returned group holds exactly the chunks of its id, in retrieval order, and is not empty. |
| `RetrievalGraph.RetrievalServiceOutcome` | server/services/retrieval.py:109-131 | For `RetrievalService`, the chunks are the search at `k_chunks` followed by a bounded number of copies of the search at `k_chunks + 25`. The answer has the Python-slice number `k_docs` of groups. Chunk counts never increase along it. Ids are distinct. Each group holds exactly its id's chunks. |

## Left out

- `nx.pagerank` (`citationNetwork.py:77-81`): a foreign library call doing floating-point power iteration. Only the weighted graph handed to it is modelled, so the score-ordering and sum-to-one expectations of the tests are not stated.
- The `datetime.now()` default of `current_year` (`citationNetwork.py:56-57`): it reads the clock. The year is a parameter.
- `extract_references_from_pdf` (`citationNetwork.py:83-111`): PDF reading and a regular-expression heuristic. `build_from_pdfs` never calls it, and the model takes the references from the metadata just as the code does.
- `pdf_files` is a parameter of `CitationNetwork.BuildFromPdfs` that nothing reads, as in the code.
- Metadata dicts are modelled as lists of (key, metadata) pairs in iteration order. The years lemma asks for distinct keys, which every Python dict has.
- CitationNetwork.GetCitations: the source returns lists in the graph library's adjacency order. The model returns sets, so it does not state that order.
- CitationNetwork.GetCitedBy: the same as `GetCitations`; it returns a set, not the library's list order.
- CitationNetwork.GetCitationCount: for a paper that is not a node, the library returns a degree view object. The model returns `None` and states nothing about that object.
- The embedding model, the Chroma vector store and its `similarity_search` (`retrieval.py:10-17, 29-32, 45-48`): external I/O. The search is an arbitrary function parameter.
- The LangGraph `StateGraph` construction, `compile` and `invoke` (`retrieval.py:78-107, 117-120`): replaced by the state machine of `RetrievalGraph`.
- Two LangGraph behaviours are not modelled: its default recursion limit of 25 steps, and a `KeyError` from the missing `k_docs`.
- RetrievalGraph.Retrieve: the fuel bound stands in for that recursion limit. A stalled run, one that never reaches `k_docs` ids, ends in the source with a `GraphRecursionError` after about a dozen expanded retrievals. The model instead ends it after `fuel` expanded retrievals by aggregating the chunks collected so far.
- Retrieval.Chunk: `docId` is `None` only when the metadata has no `doc_id` key. A chunk whose metadata holds `"doc_id": None` cannot be represented. The source files such a chunk under the key `None` (`retrieval.py:60` returns the stored value), so `Retrieval.GroupCount` describes missing keys only.
- Retrieval.Chunk: ids are strings. Non-string ids, which the vector store's metadata allows, are not modelled.
- `rrf_score`: imported by the retrieval tests but defined nowhere in `retrieval.py`, so there is nothing to model.
- The Chroma ingestion and retrieval tests: they exercise the external store.
- `server/main.py` and its API test: web-framework glue.
- `server/__tests__/conftests.py`: fixture data only.
- The `__main__` demonstration blocks of both files: printing only.
- Floating point: weights, boost and penalty are exact reals, so rounding is not modelled.

## Findings

| source | as written | input that shows it | evidently intended | confidence | as-written member | corrected member |
|---|---|---|---|---|---|---|
| server/services/retrieval.py:40 | `expand_k` computes `k + 25` from a `k` that nothing updates. Every round therefore repeats the same search, and the loop of lines 97-104 has no cap of its own. | A caller that puts `k_docs` into the workflow state, with a store where the search at `k` plus the search at `k + 25` yields fewer than `k_docs` distinct ids, e.g. a store holding fewer than `k_docs` documents. The loop then never reaches "enough", and the run ends with LangGraph's `GraphRecursionError` at its default limit of 25 steps instead of returning documents. Through `retrieval_service` the loop is not reached: it never puts `k_docs` into the state (lines 117-120), so the first `should_expand` raises `KeyError` before any `expand_k` runs. | The expansion either widens the search from round to round or stops after a bounded number of rounds, then ranks what it has. | medium, not executed | `RetrievalGraph.UncappedExpansionNeverEnough` | `RetrievalGraph.StalledRunSpendsAllFuel` |

=== FILE: citation_fixture.dfy ===
/** The three-paper network of the test suite (`server/__tests__/test_citation_network.py`):
    A cites B and C, B cites C. */
module CitationFixture {
  import opened Wrappers
  import opened Sequences
  import opened CitationNetwork

  const A: PaperId := "paper_A"
  const B: PaperId := "paper_B"
  const C: PaperId := "paper_C"

  const MetaA := PaperMeta(Some(2023), [B, C])
  const MetaB := PaperMeta(Some(2019), [C])
  const MetaC := PaperMeta(Some(2015), [])

  function Metadata(): seq<(PaperId, PaperMeta)> {
    [(A, MetaA), (B, MetaB), (C, MetaC)]
  }

  lemma Distinctness()
    ensures A != B && A != C && B != C
  {
    assert A[6] != B[6] && A[6] != C[6] && B[6] != C[6];
  }

  lemma EntryA()
    ensures AddEntry(Empty(), A, MetaA)
         == Network([A, B, C], {Edge(A, B), Edge(A, C)}, map[A := 2023])
  {
    assert AddPaper(Empty(), A, Some(2023)) == Network([A], {}, map[A := 2023]);
    ReferencesOfA();
  }

  lemma ReferencesOfA()
    ensures AddReferences(Network([A], {}, map[A := 2023]), A, [B, C])
         == Network([A, B, C], {Edge(A, B), Edge(A, C)}, map[A := 2023])
  {
    Distinctness();
    var y := map[A := 2023];
    var g0 := Network([A], {}, y);
    var g1 := Network([A, B], {Edge(A, B)}, y);
    CiteFresh(g0, A, B, g1);
    ReferenceStep(g0, A, [B, C]);
    assert [B, C][1..] == [C];
    ReferenceOfAToC();
  }

  lemma ReferenceOfAToC()
    ensures AddReferences(Network([A, B], {Edge(A, B)}, map[A := 2023]), A, [C])
         == Network([A, B, C], {Edge(A, B), Edge(A, C)}, map[A := 2023])
  {
    Distinctness();
    var y := map[A := 2023];
    var g1 := Network([A, B], {Edge(A, B)}, y);
    var g2 := Network([A, B, C], {Edge(A, B), Edge(A, C)}, y);
    CiteFresh(g1, A, C, g2);
    ReferenceStep(g1, A, [C]);
    assert [C][1..] == [];
  }

  /** The first reference of a non-empty list is added before the rest. */
  lemma ReferenceStep(g: Network, p: PaperId, refs: seq<PaperId>)
    requires refs != []
    ensures AddReferences(g, p, refs)
         == AddReferences(AddCitation(AddPaper(g, refs[0], None), p, refs[0]), p, refs[1..])
  {
  }

  /** One reference step that adds a new paper `q` cited by `p`. */
  lemma CiteFresh(g: Network, p: PaperId, q: PaperId, r: Network)
    requires p in g.nodes && q !in g.nodes
    requires r == Network(g.nodes + [q], g.edges + {Edge(p, q)}, g.years)
    ensures AddCitation(AddPaper(g, q, None), p, q) == r
  {
  }

  lemma EntryB()
    ensures AddEntry(Network([A, B, C], {Edge(A, B), Edge(A, C)}, map[A := 2023]), B, MetaB)
         == Network([A, B, C], {Edge(A, B), Edge(A, C), Edge(B, C)}, map[A := 2023, B := 2019])
  {
    Distinctness();
    var y := map[A := 2023, B := 2019];
    var g0 := AddPaper(Network([A, B, C], {Edge(A, B), Edge(A, C)}, map[A := 2023]), B, Some(2019));
    assert g0 == Network([A, B, C], {Edge(A, B), Edge(A, C)}, y);
    var g1 := AddCitation(AddPaper(g0, C, None), B, C);
    assert g1 == Network([A, B, C], {Edge(A, B), Edge(A, C), Edge(B, C)}, y);
    assert AddReferences(g0, B, [C]) == AddReferences(g1, B, []);
  }

  lemma EntryC()
    ensures AddEntry(Network([A, B, C], {Edge(A, B), Edge(A, C), Edge(B, C)}, map[A := 2023, B := 2019]), C, MetaC)
         == Network([A, B, C], {Edge(A, B), Edge(A, C), Edge(B, C)}, map[A := 2023, B := 2019, C := 2015])
  {
  }

  /** The network the test fixture builds. */
  function Fixture(): Network {
    BuildFromPdfs(Empty(), [], Metadata())
  }

  /** The network the fixture should produce. */
  const Net := Network([A, B, C], {Edge(A, B), Edge(A, C), Edge(B, C)}, map[A := 2023, B := 2019, C := 2015])

  lemma FixtureNetwork()
    ensures Fixture() == Net
  {
    var g1 := Network([A, B, C], {Edge(A, B), Edge(A, C)}, map[A := 2023]);
    var g2 := Network([A, B, C], {Edge(A, B), Edge(A, C), Edge(B, C)}, map[A := 2023, B := 2019]);
    var g3 := Network([A, B, C], {Edge(A, B), Edge(A, C), Edge(B, C)}, map[A := 2023, B := 2019, C := 2015]);
    var md := Metadata();
    assert md[1..] == [(B, MetaB), (C, MetaC)] && md[1..][1..] == [(C, MetaC)] && md[1..][1..][1..] == [];
    EntryA();
    EntryB();
    EntryC();
    BuildStep(Empty(), md, g1);
    BuildStep(g1, md[1..], g2);
    BuildStep(g2, md[1..][1..], g3);
  }

  lemma BuildStep(g: Network, md: seq<(PaperId, PaperMeta)>, g1: Network)
    requires md != [] && AddEntry(g, md[0].0, md[0].1) == g1
    ensures BuildFromPdfs(g, [], md) == BuildFromPdfs(g1, [], md[1..])
  {
  }

  lemma PredecessorsOfNet()
    ensures Predecessors(Net, A) == {}
    ensures Predecessors(Net, B) == {A}
    ensures Predecessors(Net, C) == {A, B}
    ensures Successors(Net, A) == {B, C}
  {
    Distinctness();
    assert Edge(A, B) in Net.edges && Edge(A, C) in Net.edges && Edge(B, C) in Net.edges;
  }

  lemma MostCitedOfNet()
    ensures GetMostCitedPapers(Net, 1) == [(C, 2)]
  {
    PredecessorsOfNet();
    Distinctness();
    assert InDegree(Net, A) == 0 && InDegree(Net, B) == 1 && InDegree(Net, C) == 2;
    var r := GetMostCitedPapers(Net, 1);
    assert |r| == 1;
    assert r[0].0 in Net.nodes && r[0].1 == InDegree(Net, r[0].0);
    assert C in Net.nodes;
    assert r == [r[0]];
    if r[0].0 != C {
      assert false;
    }
  }

  lemma QueriesOfNet()
    ensures Elements(GetAllPapers(Net)) == {A, B, C}
    ensures GetCitations(Net, A) == Some({B, C})
    ensures GetCitedBy(Net, C) == Some({A, B})
    ensures GetCitationCount(Net, C) == Some(2)
  {
    PredecessorsOfNet();
    Distinctness();
  }

  /** The queries the test suite asserts on the fixture, including
      `get_most_cited_papers(n=1) == [("paper_C", 2)]`. */
  lemma FixtureQueries()
    ensures Elements(GetAllPapers(Fixture())) == {A, B, C}
    ensures GetCitations(Fixture(), A) == Some({B, C})
    ensures GetCitedBy(Fixture(), C) == Some({A, B})
    ensures GetCitationCount(Fixture(), C) == Some(2)
    ensures GetMostCitedPapers(Fixture(), 1) == [(C, 2)]
  {
    FixtureNetwork();
    QueriesOfNet();
    MostCitedOfNet();
  }
}

=== FILE: citation_network.dfy ===
/** The citation graph of `server/services/citationNetwork.py`: a directed graph
    (citing paper -> cited paper) together with a map from paper to publication year.

    The graph library's directed graph is represented by
    - `nodes`: the papers in insertion order, without duplicates (the order decides ties
      in `GetMostCitedPapers`);
    - `edges`: a set of citations, because adding an existing edge changes nothing;
    - `years`: the recorded publication years. */
module CitationNetwork {
  import opened Wrappers
  import opened Sequences
  import opened StableSort

  type PaperId = string

  /** A citation: `citing` cites `cited`. */
  datatype Edge = Edge(citing: PaperId, cited: PaperId)

  datatype Network = Network(nodes: seq<PaperId>, edges: set<Edge>, years: map<PaperId, int>)

  /** The metadata of one paper handed to `BuildFromPdfs`; a missing `"year"` is `None`,
      a missing `"references"` is the empty list. */
  datatype PaperMeta = PaperMeta(year: Option<int>, references: seq<PaperId>)

  /** What every reachable network satisfies: papers are listed once, every citation
      joins two papers of the graph, and only papers of the graph have a (non-zero) year. */
  ghost predicate Valid(g: Network) {
    && Distinct(g.nodes)
    && (forall e :: e in g.edges ==> e.citing in g.nodes && e.cited in g.nodes)
    && (forall p :: p in g.years ==> p in g.nodes && g.years[p] != 0)
  }

  /** Python truthiness of an optional year: `None` and `0` are both false. */
  predicate Truthy(year: Option<int>) {
    year.Some? && year.value != 0
  }

  /** The freshly constructed network. */
  function Empty(): (g: Network)
    ensures Valid(g)
    ensures |g.nodes| == 0 && |g.edges| == 0
  {
    Network([], {}, map[])
  }

  /** The graph library's `add_node`: appends the paper unless it is already a node. */
  function AddNode(g: Network, p: PaperId): (r: Network)
    ensures p in r.nodes
    ensures g.nodes <= r.nodes
    ensures forall q :: q in r.nodes <==> q in g.nodes || q == p
    ensures r.edges == g.edges && r.years == g.years
    ensures Distinct(g.nodes) ==> Distinct(r.nodes)
  {
    if p in g.nodes then g else g.(nodes := g.nodes + [p])
  }

  /** On a duplicate-free node list, adding a node keeps its first occurrence only. */
  lemma AddNodeDedup(g: Network, p: PaperId)
    requires Distinct(g.nodes)
    ensures AddNode(g, p).nodes == Dedup(g.nodes + [p])
  {
    DedupSnoc(g.nodes, p);
    DedupOfDistinct(g.nodes);
  }

  /** `add_paper`: makes `p` a node and records its year only when the year is truthy;
      a year already recorded is never cleared. */
  function AddPaper(g: Network, p: PaperId, year: Option<int>): (r: Network)
    ensures p in r.nodes
    ensures g.nodes <= r.nodes
    ensures forall q :: q in r.nodes <==> q in g.nodes || q == p
    ensures r.edges == g.edges
    ensures Truthy(year) ==> p in r.years && r.years[p] == year.value
    ensures forall q :: q in g.years ==> q in r.years
    ensures forall q :: q in r.years && (q != p || !Truthy(year)) ==> q in g.years && r.years[q] == g.years[q]
    ensures Valid(g) ==> Valid(r)
  {
    var g1 := AddNode(g, p);
    if Truthy(year) then g1.(years := g1.years[p := year.value]) else g1
  }

  /** `add_citation`: adds the edge `citing -> cited`, adding either endpoint that is not
      yet a node (citing first). */
  function AddCitation(g: Network, citing: PaperId, cited: PaperId): (r: Network)
    ensures citing in r.nodes && cited in r.nodes
    ensures g.nodes <= r.nodes
    ensures forall q :: q in r.nodes <==> q in g.nodes || q == citing || q == cited
    ensures r.nodes == g.nodes + (if citing in g.nodes then [] else [citing])
                               + (if cited in g.nodes || cited == citing then [] else [cited])
    ensures r.edges == g.edges + {Edge(citing, cited)}
    ensures r.years == g.years
    ensures Valid(g) ==> Valid(r)
  {
    var g1 := AddNode(AddNode(g, citing), cited);
    g1.(edges := g1.edges + {Edge(citing, cited)})
  }

  /** Repeating a citation leaves the network unchanged. */
  lemma AddCitationIdempotent(g: Network, citing: PaperId, cited: PaperId)
    ensures AddCitation(AddCitation(g, citing, cited), citing, cited) == AddCitation(g, citing, cited)
  {
  }

  /** The papers `p` cites. */
  function Successors(g: Network, p: PaperId): set<PaperId> {
    set e | e in g.edges && e.citing == p :: e.cited
  }

  /** The papers citing `p`. */
  function Predecessors(g: Network, p: PaperId): set<PaperId> {
    set e | e in g.edges && e.cited == p :: e.citing
  }

  /** The number of distinct papers citing `p` (a self-citation counts once). */
  function InDegree(g: Network, p: PaperId): nat {
    |Predecessors(g, p)|
  }

  /** `get_citations`: the papers `p` cites; `None` where the graph library raises
      because `p` is not a node. */
  function GetCitations(g: Network, p: PaperId): (r: Option<set<PaperId>>)
    ensures r.Some? <==> p in g.nodes
    ensures r.Some? ==> forall q :: q in r.value <==> Edge(p, q) in g.edges
    ensures Valid(g) && r.Some? ==> forall q :: q in r.value ==> q in g.nodes
  {
    if p in g.nodes then Some(Successors(g, p)) else None
  }

  /** `get_cited_by`: the papers citing `p`; `None` where the graph library raises
      because `p` is not a node. */
  function GetCitedBy(g: Network, p: PaperId): (r: Option<set<PaperId>>)
    ensures r.Some? <==> p in g.nodes
    ensures r.Some? ==> forall q :: q in r.value <==> Edge(q, p) in g.edges
    ensures Valid(g) && r.Some? ==> forall q :: q in r.value ==> q in g.nodes
  {
    if p in g.nodes then Some(Predecessors(g, p)) else None
  }

  /** The two neighbourhood queries are mirror images of each other. */
  lemma CitationsMirrorCitedBy(g: Network, p: PaperId, q: PaperId)
    requires p in g.nodes && q in g.nodes
    ensures q in GetCitations(g, p).value <==> p in GetCitedBy(g, q).value
    ensures q in GetCitations(g, p).value <==> Edge(p, q) in g.edges
  {
  }

  /** `get_all_papers`: every paper, in insertion order. */
  function GetAllPapers(g: Network): (r: seq<PaperId>)
    ensures forall q :: q in r <==> q in g.nodes
    ensures Valid(g) ==> Distinct(r)
    ensures forall e :: Valid(g) && e in g.edges ==> e.citing in r && e.cited in r
  {
    g.nodes
  }

  /** `get_citation_count`: the in-degree, i.e. the number of distinct citing papers;
      `None` for a paper that is not a node (the graph library then returns a degree
      view rather than a number). */
  function GetCitationCount(g: Network, p: PaperId): (r: Option<nat>)
    ensures r.Some? <==> p in g.nodes
    ensures r.Some? ==> r.value == |GetCitedBy(g, p).value|
  {
    if p in g.nodes then Some(InDegree(g, p)) else None
  }

  /** A citation raises the cited paper's count by one exactly when it is new, and no
      other paper's count changes; in particular a repeated self-citation counts once. */
  lemma {:induction false} AddCitationCount(g: Network, citing: PaperId, cited: PaperId, p: PaperId)
    ensures InDegree(AddCitation(g, citing, cited), p)
         == InDegree(g, p) + (if p == cited && Edge(citing, cited) !in g.edges then 1 else 0)
  {
    var r := AddCitation(g, citing, cited);
    if p == cited {
      assert Predecessors(r, p) == Predecessors(g, p) + {citing};
      if Edge(citing, cited) !in g.edges {
        assert citing !in Predecessors(g, p);
      } else {
        assert citing in Predecessors(g, p);
        assert Predecessors(r, p) == Predecessors(g, p);
      }
    } else {
      assert Predecessors(r, p) == Predecessors(g, p);
    }
  }

  /** The sort key of `get_most_cited_papers`: the degree of a (paper, degree) pair. */
  function Degree(d: (PaperId, nat)): int {
    d.1
  }

  /** The paper of a (paper, degree) pair. */
  function Paper(d: (PaperId, nat)): PaperId {
    d.0
  }

  /** The graph library's `in_degree()` view: (paper, in-degree) pairs in node order. */
  function InDegrees(g: Network): (r: seq<(PaperId, nat)>)
    ensures |r| == |g.nodes|
    ensures forall i :: 0 <= i < |r| ==> r[i] == (g.nodes[i], InDegree(g, g.nodes[i]))
  {
    seq(|g.nodes|, i requires 0 <= i < |g.nodes| => (g.nodes[i], InDegree(g, g.nodes[i])))
  }

  /** `get_most_cited_papers(n)`: the first `n` (Python slice) of the (paper, in-degree)
      pairs stably sorted by in-degree, highest first. Papers with equal in-degree keep
      their insertion order, no paper is listed twice, and no paper left out has a higher
      in-degree than one listed. */
  function GetMostCitedPapers(g: Network, n: int): (r: seq<(PaperId, nat)>)
    ensures |r| == SliceEnd(|g.nodes|, n)
    ensures SortedDesc(r, Degree)
    ensures forall i :: 0 <= i < |r| ==> r[i].0 in g.nodes && r[i].1 == InDegree(g, r[i].0)
    ensures forall c :: FilterBy(r, Degree, c) <= FilterBy(InDegrees(g), Degree, c)
    ensures forall p, i :: p in g.nodes && 0 <= i < |r| && (p, InDegree(g, p)) !in r ==> InDegree(g, p) <= r[i].1
    ensures Valid(g) ==> DistinctBy(r, Paper)
  {
    MostCitedFacts(g, n);
    TopN(InDegrees(g), Degree, n)
  }

  lemma MostCitedFacts(g: Network, n: int)
    ensures var r := TopN(InDegrees(g), Degree, n);
            forall i :: 0 <= i < |r| ==> r[i].0 in g.nodes && r[i].1 == InDegree(g, r[i].0)
    ensures var r := TopN(InDegrees(g), Degree, n);
            forall p, i :: p in g.nodes && 0 <= i < |r| && (p, InDegree(g, p)) !in r ==> InDegree(g, p) <= r[i].1
    ensures Valid(g) ==> DistinctBy(TopN(InDegrees(g), Degree, n), Paper)
  {
    MostCitedMembers(g, n);
    MostCitedDominates(g, n);
    if Valid(g) {
      MostCitedDistinct(g, n);
    }
  }

  lemma MostCitedMembers(g: Network, n: int)
    ensures var r := TopN(InDegrees(g), Degree, n);
            forall i :: 0 <= i < |r| ==> r[i].0 in g.nodes && r[i].1 == InDegree(g, r[i].0)
  {
    var d := InDegrees(g);
    var r := TopN(d, Degree, n);
    forall i | 0 <= i < |r| ensures r[i].0 in g.nodes && r[i].1 == InDegree(g, r[i].0) {
      assert r[i] in d;
      var j :| 0 <= j < |d| && d[j] == r[i];
      assert d[j] == (g.nodes[j], InDegree(g, g.nodes[j]));
    }
  }

  lemma MostCitedDominates(g: Network, n: int)
    ensures var r := TopN(InDegrees(g), Degree, n);
            forall p, i :: p in g.nodes && 0 <= i < |r| && (p, InDegree(g, p)) !in r ==> InDegree(g, p) <= r[i].1
  {
    var d := InDegrees(g);
    var r := TopN(d, Degree, n);
    forall p, i | p in g.nodes && 0 <= i < |r| && (p, InDegree(g, p)) !in r ensures InDegree(g, p) <= r[i].1 {
      var j :| 0 <= j < |g.nodes| && g.nodes[j] == p;
      assert d[j] == (p, InDegree(g, p));
      assert (p, InDegree(g, p)) in d;
      assert Degree((p, InDegree(g, p))) <= Degree(r[i]);
    }
  }

  lemma MostCitedDistinct(g: Network, n: int)
    requires Valid(g)
    ensures DistinctBy(TopN(InDegrees(g), Degree, n), Paper)
  {
    var d := InDegrees(g);
    assert DistinctBy(d, Paper) by {
      forall i, j | 0 <= i < j < |d| ensures Paper(d[i]) != Paper(d[j]) {
        assert Paper(d[i]) == g.nodes[i] && Paper(d[j]) == g.nodes[j];
      }
    }
    TopNDistinctBy(d, Degree, n, Paper);
  }

  /** The citations contributed by one paper's reference list. */
  function ReferenceEdges(p: PaperId, refs: seq<PaperId>): set<Edge> {
    set q | q in refs :: Edge(p, q)
  }

  /** The inner loop of `build_from_pdfs`: each reference becomes a paper (without a
      year) and is cited by `p`. */
  function AddReferences(g: Network, p: PaperId, refs: seq<PaperId>): (r: Network)
    ensures g.nodes <= r.nodes
    ensures forall q :: q in r.nodes <==> q in g.nodes || q in refs || (q == p && refs != [])
    ensures r.edges == g.edges + ReferenceEdges(p, refs)
    ensures r.years == g.years
    ensures Valid(g) ==> Valid(r)
    decreases |refs|
  {
    if refs == [] then g
    else
      var g1 := AddCitation(AddPaper(g, refs[0], None), p, refs[0]);
      assert ReferenceEdges(p, refs) == {Edge(p, refs[0])} + ReferenceEdges(p, refs[1..]) by {
        assert refs == [refs[0]] + refs[1..];
      }
      AddReferences(g1, p, refs[1..])
  }

  /** In a well-formed network that already holds `p`, the references become nodes in list
      order, each at its first mention and only if it is new. */
  lemma {:induction false} AddReferencesOrder(g: Network, p: PaperId, refs: seq<PaperId>)
    requires Valid(g) && p in g.nodes
    ensures AddReferences(g, p, refs).nodes == Dedup(g.nodes + refs)
    decreases |refs|
  {
    if refs == [] {
      assert g.nodes + refs == g.nodes;
      DedupOfDistinct(g.nodes);
    } else {
      var g0 := AddPaper(g, refs[0], None);
      var g1 := AddCitation(g0, p, refs[0]);
      AddNodeDedup(g, refs[0]);
      assert g1.nodes == g0.nodes;
      AddReferencesOrder(g1, p, refs[1..]);
      DedupDedup(g.nodes + [refs[0]], refs[1..]);
      ConsAssoc(g.nodes, refs);
    }
  }

  /** One iteration of the outer loop of `build_from_pdfs`. */
  function AddEntry(g: Network, p: PaperId, meta: PaperMeta): (r: Network)
    ensures r.years == if Truthy(meta.year) then g.years[p := meta.year.value] else g.years
  {
    AddReferences(AddPaper(g, p, meta.year), p, meta.references)
  }

  /** Regrouping the first element of `s` behind `a`. */
  lemma ConsAssoc<T>(a: seq<T>, s: seq<T>)
    requires s != []
    ensures a + s == (a + [s[0]]) + s[1..]
  {
    assert s == [s[0]] + s[1..];
  }

  lemma EntryAssoc<T>(a: seq<T>, p: T, refs: seq<T>, rest: seq<T>)
    ensures a + [p] + refs + rest == a + ([p] + refs + rest)
  {
  }

  /** Every paper named in the metadata in the order `build_from_pdfs` meets it: each key,
      then its references, entry after entry. */
  function MentionOrder(metadata: seq<(PaperId, PaperMeta)>): seq<PaperId>
    decreases |metadata|
  {
    if metadata == [] then []
    else [metadata[0].0] + metadata[0].1.references + MentionOrder(metadata[1..])
  }

  /** Every citation named in the metadata. */
  function MetaEdges(metadata: seq<(PaperId, PaperMeta)>): set<Edge> {
    set e, q | e in metadata && q in e.1.references :: Edge(e.0, q)
  }

  /** Every paper named in the metadata, as a key or as a reference. */
  function Mentioned(metadata: seq<(PaperId, PaperMeta)>): set<PaperId> {
    (set e | e in metadata :: e.0) + (set e, q | e in metadata && q in e.1.references :: q)
  }

  /** `build_from_pdfs`: the metadata entries (a Python dict, in its iteration order) are
      added one after the other; the list of PDF files is not read. */
  function BuildFromPdfs(g: Network, pdfFiles: seq<string>, metadata: seq<(PaperId, PaperMeta)>): Network
    decreases |metadata|
  {
    if metadata == [] then g
    else BuildFromPdfs(AddEntry(g, metadata[0].0, metadata[0].1), pdfFiles, metadata[1..])
  }

  /** Every key and every reference becomes a node, the earlier nodes stay in front in
      their order, exactly the named citations are added, no recorded year is cleared, and
      a well-formed graph stays well-formed. */
  lemma {:induction false} BuildFromPdfsSpec(g: Network, pdfFiles: seq<string>, metadata: seq<(PaperId, PaperMeta)>)
    ensures g.nodes <= BuildFromPdfs(g, pdfFiles, metadata).nodes
    ensures forall q :: q in BuildFromPdfs(g, pdfFiles, metadata).nodes <==> q in g.nodes || q in Mentioned(metadata)
    ensures BuildFromPdfs(g, pdfFiles, metadata).edges == g.edges + MetaEdges(metadata)
    ensures forall q :: q in g.years ==> q in BuildFromPdfs(g, pdfFiles, metadata).years
    ensures Valid(g) ==> Valid(BuildFromPdfs(g, pdfFiles, metadata))
    decreases |metadata|
  {
    if metadata != [] {
      var h := metadata[0];
      var t := metadata[1..];
      var g1 := AddEntry(g, h.0, h.1);
      MetadataCons(metadata);
      BuildFromPdfsSpec(g1, pdfFiles, t);
    }
  }

  /** In a well-formed network, `build_from_pdfs` appends the papers in the order it meets
      them (each key, then its references), each at its first mention and only if new. This
      order decides ties in `get_most_cited_papers`. */
  lemma {:induction false} BuildFromPdfsOrder(g: Network, pdfFiles: seq<string>, metadata: seq<(PaperId, PaperMeta)>)
    requires Valid(g)
    ensures BuildFromPdfs(g, pdfFiles, metadata).nodes == Dedup(g.nodes + MentionOrder(metadata))
    decreases |metadata|
  {
    if metadata == [] {
      assert g.nodes + MentionOrder(metadata) == g.nodes;
      DedupOfDistinct(g.nodes);
    } else {
      var h := metadata[0];
      var g1 := AddEntry(g, h.0, h.1);
      BuildFromPdfsStep(g, pdfFiles, metadata);
      assert Valid(g1);
      BuildFromPdfsOrder(g1, pdfFiles, metadata[1..]);
      EntryOrder(g, h.0, h.1, MentionOrder(metadata[1..]));
    }
  }

  /** One entry appends its key and then its references, each unless already a node. */
  lemma EntryOrder(g: Network, p: PaperId, meta: PaperMeta, rest: seq<PaperId>)
    requires Valid(g)
    ensures Dedup(AddEntry(g, p, meta).nodes + rest) == Dedup(g.nodes + ([p] + meta.references + rest))
  {
    var g0 := AddPaper(g, p, meta.year);
    var refs := meta.references;
    AddNodeDedup(g, p);
    AddReferencesOrder(g0, p, refs);
    DedupDedup(g.nodes + [p], refs);
    DedupDedup(g.nodes + [p] + refs, rest);
    EntryAssoc(g.nodes, p, refs, rest);
  }

  /** A network built from scratch lists every paper the metadata mentions, as a key or
      as a reference, once each, and no other paper. */
  lemma AllPapersOfBuild(pdfFiles: seq<string>, metadata: seq<(PaperId, PaperMeta)>)
    ensures Distinct(GetAllPapers(BuildFromPdfs(Empty(), pdfFiles, metadata)))
    ensures forall q :: q in GetAllPapers(BuildFromPdfs(Empty(), pdfFiles, metadata)) <==> q in Mentioned(metadata)
  {
    BuildFromPdfsSpec(Empty(), pdfFiles, metadata);
  }

  /** The citations and papers of a non-empty metadata list: those of its first entry and
      those of the rest. */
  lemma MetadataCons(metadata: seq<(PaperId, PaperMeta)>)
    requires metadata != []
    ensures MetaEdges(metadata) == ReferenceEdges(metadata[0].0, metadata[0].1.references) + MetaEdges(metadata[1..])
    ensures Mentioned(metadata) == {metadata[0].0} + Elements(metadata[0].1.references) + Mentioned(metadata[1..])
  {
    assert metadata == [metadata[0]] + metadata[1..];
  }

  /** The papers whose metadata carries a truthy year. */
  function DatedKeys(metadata: seq<(PaperId, PaperMeta)>): set<PaperId> {
    set e | e in metadata && Truthy(e.1.year) :: e.0
  }

  /** The dict keys of the metadata are distinct. */
  ghost predicate DistinctKeys(metadata: seq<(PaperId, PaperMeta)>) {
    forall i, j :: 0 <= i < j < |metadata| ==> metadata[i].0 != metadata[j].0
  }

  /** Dropping the first entry keeps the keys distinct, and the first key does not recur. */
  lemma DistinctKeysTail(metadata: seq<(PaperId, PaperMeta)>)
    requires metadata != [] && DistinctKeys(metadata)
    ensures DistinctKeys(metadata[1..])
    ensures forall e :: e in metadata[1..] ==> e.0 != metadata[0].0
  {
    var t := metadata[1..];
    forall i, j | 0 <= i < j < |t| ensures t[i].0 != t[j].0 {
      assert t[i] == metadata[i + 1] && t[j] == metadata[j + 1];
    }
    forall e | e in t ensures e.0 != metadata[0].0 {
      var j :| 0 <= j < |t| && t[j] == e;
      assert metadata[j + 1] == e;
    }
  }

  /** `build_from_pdfs` on a non-empty dict is its first entry followed by the rest. */
  lemma BuildFromPdfsStep(g: Network, pdfFiles: seq<string>, metadata: seq<(PaperId, PaperMeta)>)
    requires metadata != []
    ensures BuildFromPdfs(g, pdfFiles, metadata)
         == BuildFromPdfs(AddEntry(g, metadata[0].0, metadata[0].1), pdfFiles, metadata[1..])
  {
  }

  /** After `build_from_pdfs` every key with a truthy year carries that year. */
  lemma BuildFromPdfsRecordsYears(g: Network, pdfFiles: seq<string>, metadata: seq<(PaperId, PaperMeta)>)
    requires DistinctKeys(metadata)
    ensures forall e :: e in metadata && Truthy(e.1.year) ==>
              e.0 in BuildFromPdfs(g, pdfFiles, metadata).years
              && BuildFromPdfs(g, pdfFiles, metadata).years[e.0] == e.1.year.value
  {
    forall e | e in metadata && Truthy(e.1.year)
      ensures e.0 in BuildFromPdfs(g, pdfFiles, metadata).years
      ensures BuildFromPdfs(g, pdfFiles, metadata).years[e.0] == e.1.year.value
    {
      RecordsYear(g, pdfFiles, metadata, e);
    }
  }

  lemma InTail<T>(s: seq<T>, x: T)
    requires x in s && x != s[0]
    ensures x in s[1..]
  {
    assert s == [s[0]] + s[1..];
  }

  /** One entry's truthy year is recorded by `build_from_pdfs`. */
  lemma {:induction false} RecordsYear(g: Network, pdfFiles: seq<string>, metadata: seq<(PaperId, PaperMeta)>,
                                       e: (PaperId, PaperMeta))
    requires DistinctKeys(metadata) && e in metadata && Truthy(e.1.year)
    ensures e.0 in BuildFromPdfs(g, pdfFiles, metadata).years
    ensures BuildFromPdfs(g, pdfFiles, metadata).years[e.0] == e.1.year.value
    decreases |metadata|
  {
    var h := metadata[0];
    var t := metadata[1..];
    BuildFromPdfsStep(g, pdfFiles, metadata);
    if e == h {
      RecordsFirstYear(g, pdfFiles, metadata);
    } else {
      InTail(metadata, e);
      DistinctKeysTail(metadata);
      RecordsYear(AddEntry(g, h.0, h.1), pdfFiles, t, e);
    }
  }

  /** The first entry's truthy year survives the rest of a dict with distinct keys. */
  lemma RecordsFirstYear(g: Network, pdfFiles: seq<string>, metadata: seq<(PaperId, PaperMeta)>)
    requires metadata != [] && DistinctKeys(metadata) && Truthy(metadata[0].1.year)
    ensures metadata[0].0 in BuildFromPdfs(AddEntry(g, metadata[0].0, metadata[0].1), pdfFiles, metadata[1..]).years
    ensures BuildFromPdfs(AddEntry(g, metadata[0].0, metadata[0].1), pdfFiles, metadata[1..]).years[metadata[0].0]
         == metadata[0].1.year.value
  {
    var h := metadata[0];
    var t := metadata[1..];
    var g1 := AddEntry(g, h.0, h.1);
    DistinctKeysTail(metadata);
    BuildFromPdfsKeepsYears(g1, pdfFiles, t);
    BuildFromPdfsSpec(g1, pdfFiles, t);
    assert h.0 in g1.years && g1.years[h.0] == h.1.year.value;
    assert h.0 !in DatedKeys(t);
  }

  /** After `build_from_pdfs` every recorded year of a paper without a truthy year in the
      metadata is the one recorded before. */
  lemma {:induction false} BuildFromPdfsKeepsYears(g: Network, pdfFiles: seq<string>, metadata: seq<(PaperId, PaperMeta)>)
    ensures forall q :: q in BuildFromPdfs(g, pdfFiles, metadata).years && q !in DatedKeys(metadata) ==>
              q in g.years && BuildFromPdfs(g, pdfFiles, metadata).years[q] == g.years[q]
    decreases |metadata|
  {
    if metadata != [] {
      var h := metadata[0];
      var t := metadata[1..];
      var g1 := AddEntry(g, h.0, h.1);
      var r := BuildFromPdfs(g1, pdfFiles, t);
      assert r == BuildFromPdfs(g, pdfFiles, metadata);
      BuildFromPdfsKeepsYears(g1, pdfFiles, t);
      assert DatedKeys(metadata) == DatedKeys(t) + (if Truthy(h.1.year) then {h.0} else {}) by {
        assert metadata == [h] + t;
        assert forall e :: e in metadata <==> e == h || e in t;
      }
    }
  }
}

=== FILE: retrieval.dfy ===
/** The pure parts of `server/services/retrieval.py`: the retrieval state, the four graph
    nodes (`initial_retrieval`, `expand_k`, `expanded_retrieval`, `aggregate_documents`) and
    the routing decision `should_expand`. The vector store's similarity search is a
    parameter: any function from (query, breadth) to a list of chunks. */
module Retrieval {
  import opened Wrappers
  import opened Sequences

  type DocId = string

  /** A retrieved chunk; `docId` is `None` when its metadata has no `"doc_id"` key. */
  datatype Chunk = Chunk(docId: Option<DocId>, pageContent: string)

  /** One entry of the aggregation dict: a document id and its chunks. */
  datatype Group = Group(docId: DocId, chunks: seq<Chunk>)

  /** `RetrievalState`. `documents` is the aggregation dict as its list of items, in the
      dict's (insertion) order. */
  datatype RetrievalState = RetrievalState(
    query: string,
    k: int,
    expandedK: int,
    kDocs: int,
    retrievedChunks: seq<Chunk>,
    documents: seq<Group>)

  /** The vector store's `similarity_search(query, k)`. */
  type Search = (string, int) -> seq<Chunk>

  /** How much `expand_k` widens the search. */
  const ExpansionStep: int := 25

  /** The document id of a chunk, `None` when it has none. */
  function DocIdOf(c: Chunk): Option<DocId> {
    c.docId
  }

  /** The document id of a group. */
  function GroupId(g: Group): DocId {
    g.docId
  }

  /** The key under which chunks without a document id are grouped. */
  const UnknownDocId: DocId := "unknown"

  /** The aggregation key of a chunk: its document id, or `"unknown"` when it has none. */
  function DocKey(c: Chunk): DocId {
    c.docId.GetOr(UnknownDocId)
  }

  /** `initial_retrieval`: the first search, at breadth `k`, replaces the chunk list. */
  function InitialRetrieval(search: Search, s: RetrievalState): (r: RetrievalState)
  {
    s.(retrievedChunks := search(s.query, s.k))
  }

  /** `expand_k`: sets `expanded_k` to `k + 25`. It reads `k`, which nothing ever
      updates, so every expansion asks for the same breadth. */
  function ExpandK(s: RetrievalState): (r: RetrievalState)
    ensures r.expandedK == s.k + ExpansionStep
    ensures r.(expandedK := s.expandedK) == s
  {
    s.(expandedK := s.k + ExpansionStep)
  }

  /** Running `expand_k` again changes nothing: the breadth does not keep growing. */
  lemma ExpandKIdempotent(s: RetrievalState)
    ensures ExpandK(ExpandK(s)) == ExpandK(s)
  {
  }

  /** `expanded_retrieval`: searches at breadth `expanded_k` and appends the result to the
      chunks gathered so far, keeping duplicates. */
  function ExpandedRetrieval(search: Search, s: RetrievalState): (r: RetrievalState)
  {
    s.(retrievedChunks := s.retrievedChunks + search(s.query, s.expandedK))
  }

  /** The initial search discards whatever chunk list the state held and changes nothing
      else. */
  lemma InitialRetrievalReplaces(search: Search, s: RetrievalState, earlier: seq<Chunk>)
    ensures InitialRetrieval(search, s).retrievedChunks == search(s.query, s.k)
    ensures InitialRetrieval(search, s.(retrievedChunks := earlier)) == InitialRetrieval(search, s)
    ensures InitialRetrieval(search, s).(retrievedChunks := s.retrievedChunks) == s
  {
  }

  /** An expanded retrieval keeps every chunk gathered so far as a prefix, appends the new
      search result after it (duplicates included), and changes nothing else. */
  lemma ExpandedRetrievalAppends(search: Search, s: RetrievalState)
    ensures s.retrievedChunks <= ExpandedRetrieval(search, s).retrievedChunks
    ensures |ExpandedRetrieval(search, s).retrievedChunks|
         == |s.retrievedChunks| + |search(s.query, s.expandedK)|
    ensures ExpandedRetrieval(search, s).retrievedChunks[|s.retrievedChunks|..] == search(s.query, s.expandedK)
    ensures ExpandedRetrieval(search, s).(retrievedChunks := s.retrievedChunks) == s
  {
  }

  /** The set `should_expand` builds: the `doc_id` of every chunk, `None` included. */
  function DistinctDocIds(chunks: seq<Chunk>): set<Option<DocId>> {
    set c | c in chunks :: c.docId
  }

  /** The two labels `should_expand` returns. */
  datatype Decision = Expand | Enough

  /** `should_expand`: expand while fewer than `kDocs` distinct document ids (a missing
      id counting as one value of its own) have been seen. Counted the other way: walk
      the list of ids and count the first appearances. */
  function ShouldExpand(chunks: seq<Chunk>, kDocs: int): (d: Decision)
    ensures d == Expand <==> CountDistinct(Map(chunks, DocIdOf)) < kDocs
  {
    DocIdCount(chunks);
    CountDistinctDedup(Map(chunks, DocIdOf));
    if |DistinctDocIds(chunks)| < kDocs then Expand else Enough
  }

  /** `should_expand` counted through the list of ids with repeats dropped. */
  lemma ShouldExpandCountsIds(chunks: seq<Chunk>, kDocs: int)
    ensures ShouldExpand(chunks, kDocs) == Expand <==> |Dedup(Map(chunks, DocIdOf))| < kDocs
  {
    CountDistinctDedup(Map(chunks, DocIdOf));
  }

  /** The set of ids has as many members as the id list has entries once repeats are
      dropped. */
  lemma DocIdCount(chunks: seq<Chunk>)
    ensures |Dedup(Map(chunks, DocIdOf))| == |DistinctDocIds(chunks)|
  {
    var ids := Map(chunks, DocIdOf);
    DedupCard(ids);
    assert Elements(ids) == DistinctDocIds(chunks) by {
      forall o | o in DistinctDocIds(chunks) ensures o in Elements(ids) {
        var c :| c in chunks && c.docId == o;
        var i :| 0 <= i < |chunks| && chunks[i] == c;
        assert ids[i] == o;
      }
    }
  }

  /** The ids seen in two chunk lists together are those seen in either. */
  lemma DistinctDocIdsAppend(a: seq<Chunk>, b: seq<Chunk>)
    ensures DistinctDocIds(a + b) == DistinctDocIds(a) + DistinctDocIds(b)
  {
    assert forall c :: c in a + b <==> c in a || c in b;
  }

  /** More chunks never turn `Enough` back into `Expand`. */
  lemma EnoughIsStable(a: seq<Chunk>, b: seq<Chunk>, kDocs: int)
    requires ShouldExpand(a, kDocs) == Enough
    ensures ShouldExpand(a + b, kDocs) == Enough
  {
    DistinctDocIdsAppend(a, b);
    assert DistinctDocIds(a) <= DistinctDocIds(a + b);
    SubsetCard(DistinctDocIds(a), DistinctDocIds(a + b));
  }

  lemma SubsetCard<T>(a: set<T>, b: set<T>)
    requires a <= b
    ensures |a| <= |b|
  {
    assert b == a + (b - a);
  }

  /** Appending the same search result again adds no new id. */
  lemma RepeatAddsNoIds(a: seq<Chunk>, b: seq<Chunk>)
    ensures DistinctDocIds(a + b + b) == DistinctDocIds(a + b)
  {
    DistinctDocIdsAppend(a + b, b);
    DistinctDocIdsAppend(a, b);
  }



  /** The number of chunks over all groups. */
  function TotalChunks(gs: seq<Group>): nat {
    if gs == [] then 0 else |gs[0].chunks| + TotalChunks(gs[1..])
  }

  /** `doc_map[doc_id].append(chunk)` on a `defaultdict(list)`: appends the chunk to the
      group of its key, or opens a new group at the end. */
  function AddChunk(gs: seq<Group>, c: Chunk): seq<Group> {
    if gs == [] then [Group(DocKey(c), [c])]
    else if gs[0].docId == DocKey(c) then [Group(gs[0].docId, gs[0].chunks + [c])] + gs[1..]
    else [gs[0]] + AddChunk(gs[1..], c)
  }

  /** With distinct keys, `AddChunk` extends exactly the group of the chunk's key, or adds
      one group for it at the end, and leaves every other group as it was. */
  lemma {:induction false} AddChunkSpec(gs: seq<Group>, c: Chunk)
    requires Distinct(Map(gs, GroupId))
    ensures |AddChunk(gs, c)| == |gs| + (if DocKey(c) in Map(gs, GroupId) then 0 else 1)
    ensures forall i :: 0 <= i < |gs| ==>
              AddChunk(gs, c)[i] == Group(gs[i].docId, gs[i].chunks + (if gs[i].docId == DocKey(c) then [c] else []))
    ensures DocKey(c) !in Map(gs, GroupId) ==> AddChunk(gs, c)[|gs|] == Group(DocKey(c), [c])
    ensures TotalChunks(AddChunk(gs, c)) == TotalChunks(gs) + 1
  {
    if gs != [] {
      assert Distinct(Map(gs[1..], GroupId)) by {
        assert forall i :: 0 <= i < |gs| - 1 ==> Map(gs[1..], GroupId)[i] == Map(gs, GroupId)[i + 1];
      }
      if gs[0].docId == DocKey(c) {
        assert DocKey(c) !in Map(gs[1..], GroupId) by {
          assert forall i :: 0 <= i < |gs| - 1 ==> Map(gs[1..], GroupId)[i] == Map(gs, GroupId)[i + 1];
        }
        var r := AddChunk(gs, c);
        assert r[1..] == gs[1..];
      } else {
        assert DocKey(c) in Map(gs, GroupId) <==> DocKey(c) in Map(gs[1..], GroupId) by {
          assert Map(gs, GroupId) == [gs[0].docId] + Map(gs[1..], GroupId);
        }
        AddChunkSpec(gs[1..], c);
        var rest := AddChunk(gs[1..], c);
        assert ([gs[0]] + rest)[1..] == rest;
      }
    }
  }

  /** `aggregate_documents`' loop: groups the chunks by key, in order of first appearance. */
  function Aggregate(chunks: seq<Chunk>): seq<Group> {
    if chunks == [] then []
    else AddChunk(Aggregate(chunks[..|chunks| - 1]), chunks[|chunks| - 1])
  }

  /** The aggregation is the partition of the chunks by key: one group per distinct key, in
      order of first appearance, each holding exactly the chunks with that key in retrieval
      order, so no group is empty and no chunk is lost or duplicated. */
  lemma {:induction false} AggregateSpec(chunks: seq<Chunk>)
    ensures Map(Aggregate(chunks), GroupId) == Dedup(Map(chunks, DocKey))
    ensures forall i :: 0 <= i < |Aggregate(chunks)| ==>
              Aggregate(chunks)[i].chunks == FilterBy(chunks, DocKey, Aggregate(chunks)[i].docId)
    ensures forall i :: 0 <= i < |Aggregate(chunks)| ==> |Aggregate(chunks)[i].chunks| > 0
    ensures TotalChunks(Aggregate(chunks)) == |chunks|
  {
    if chunks != [] {
      var prefix := chunks[..|chunks| - 1];
      var c := chunks[|chunks| - 1];
      AggregateSpec(prefix);
      var gs := Aggregate(prefix);
      AggregateStep(chunks, prefix, c, gs);
      AddChunkSpec(gs, c);
    }
  }

  /** One step of `Aggregate`: adding the last chunk keeps the grouping invariant. */
  lemma AggregateStep(chunks: seq<Chunk>, prefix: seq<Chunk>, c: Chunk, gs: seq<Group>)
    requires chunks != [] && prefix == chunks[..|chunks| - 1] && c == chunks[|chunks| - 1]
    requires Map(gs, GroupId) == Dedup(Map(prefix, DocKey))
    requires forall i :: 0 <= i < |gs| ==> gs[i].chunks == FilterBy(prefix, DocKey, gs[i].docId)
    requires forall i :: 0 <= i < |gs| ==> |gs[i].chunks| > 0
    ensures Distinct(Map(gs, GroupId))
    ensures Map(AddChunk(gs, c), GroupId) == Dedup(Map(chunks, DocKey))
    ensures forall i :: 0 <= i < |AddChunk(gs, c)| ==>
              AddChunk(gs, c)[i].chunks == FilterBy(chunks, DocKey, AddChunk(gs, c)[i].docId)
    ensures forall i :: 0 <= i < |AddChunk(gs, c)| ==> |AddChunk(gs, c)[i].chunks| > 0
  {
    AggregateStepKeys(chunks, prefix, c, gs);
    AggregateStepChunks(chunks, prefix, c, gs);
  }

  lemma AggregateStepKeys(chunks: seq<Chunk>, prefix: seq<Chunk>, c: Chunk, gs: seq<Group>)
    requires chunks != [] && prefix == chunks[..|chunks| - 1] && c == chunks[|chunks| - 1]
    requires Map(gs, GroupId) == Dedup(Map(prefix, DocKey))
    ensures Distinct(Map(gs, GroupId))
    ensures Map(AddChunk(gs, c), GroupId) == Dedup(Map(chunks, DocKey))
    ensures DocKey(c) in Map(gs, GroupId) <==> DocKey(c) in Map(prefix, DocKey)
  {
    var k := DocKey(c);
    assert Distinct(Map(gs, GroupId));
    AddChunkKeys(gs, c);
    DocKeysSnoc(chunks);
    DedupSnoc(Map(prefix, DocKey), k);
    DedupMembers(Map(prefix, DocKey), k);
  }

  lemma DocKeysSnoc(chunks: seq<Chunk>)
    requires chunks != []
    ensures Map(chunks, DocKey) == Map(chunks[..|chunks| - 1], DocKey) + [DocKey(chunks[|chunks| - 1])]
  {
  }

  /** The keys after `AddChunk`: unchanged, or the new key appended. */
  lemma AddChunkKeys(gs: seq<Group>, c: Chunk)
    requires Distinct(Map(gs, GroupId))
    ensures Map(AddChunk(gs, c), GroupId) == if DocKey(c) in Map(gs, GroupId) then Map(gs, GroupId) else Map(gs, GroupId) + [DocKey(c)]
  {
    AddChunkSpec(gs, c);
    var r := AddChunk(gs, c);
    var ks := Map(gs, GroupId);
    var rs := Map(r, GroupId);
    assert forall i :: 0 <= i < |gs| ==> rs[i] == ks[i];
    if DocKey(c) in ks {
      assert rs == ks;
    } else {
      assert rs[|gs|] == DocKey(c);
      assert rs == ks + [DocKey(c)];
    }
  }

  lemma AggregateStepChunks(chunks: seq<Chunk>, prefix: seq<Chunk>, c: Chunk, gs: seq<Group>)
    requires chunks != [] && prefix == chunks[..|chunks| - 1] && c == chunks[|chunks| - 1]
    requires Distinct(Map(gs, GroupId))
    requires DocKey(c) in Map(gs, GroupId) <==> DocKey(c) in Map(prefix, DocKey)
    requires forall i :: 0 <= i < |gs| ==> gs[i].chunks == FilterBy(prefix, DocKey, gs[i].docId)
    requires forall i :: 0 <= i < |gs| ==> |gs[i].chunks| > 0
    ensures forall i :: 0 <= i < |AddChunk(gs, c)| ==>
              AddChunk(gs, c)[i].chunks == FilterBy(chunks, DocKey, AddChunk(gs, c)[i].docId)
    ensures forall i :: 0 <= i < |AddChunk(gs, c)| ==> |AddChunk(gs, c)[i].chunks| > 0
  {
    var k := DocKey(c);
    AddChunkSpec(gs, c);
    var r := AddChunk(gs, c);
    forall i | 0 <= i < |r|
      ensures r[i].chunks == FilterBy(chunks, DocKey, r[i].docId)
      ensures |r[i].chunks| > 0
    {
      if i < |gs| {
        var g := gs[i];
        var extra := if g.docId == k then [c] else [];
        assert r[i] == Group(g.docId, g.chunks + extra);
        assert g.chunks == FilterBy(prefix, DocKey, g.docId);
        assert FilterBy(chunks, DocKey, g.docId) == FilterBy(prefix, DocKey, g.docId) + extra;
        assert |g.chunks| > 0;
      } else {
        assert i == |gs|;
        assert k !in Map(gs, GroupId);
        assert r[i] == Group(k, [c]);
        assert k !in Map(prefix, DocKey);
        FilterByNone(prefix, DocKey, k);
        assert FilterBy(chunks, DocKey, k) == FilterBy(prefix, DocKey, k) + [c];
      }
    }
  }

  /** `aggregate_documents`: stores the grouping of all retrieved chunks. */
  function AggregateDocuments(s: RetrievalState): (r: RetrievalState)
    ensures r.(documents := s.documents) == s
  {
    s.(documents := Aggregate(s.retrievedChunks))
  }

  /** The keys the ids map to: a missing id becomes `"unknown"`. */
  function KeyImage(ids: set<Option<DocId>>): set<DocId> {
    set o | o in ids :: o.GetOr(UnknownDocId)
  }

  /** Two ids share a key only if one is missing and the other is the literal `"unknown"`. */
  predicate Collide(ids: set<Option<DocId>>) {
    None in ids && Some(UnknownDocId) in ids
  }

  /** Without a collision, distinct ids give distinct keys. */
  lemma {:induction false} KeyImageCard(ids: set<Option<DocId>>)
    requires !Collide(ids)
    ensures |KeyImage(ids)| == |ids|
    decreases ids
  {
    if ids != {} {
      var x :| x in ids;
      var rest := ids - {x};
      KeyImageCard(rest);
      assert KeyImage(ids) == KeyImage(rest) + {x.GetOr(UnknownDocId)};
      forall y | y in rest ensures y.GetOr(UnknownDocId) != x.GetOr(UnknownDocId) {
        if y.Some? && x.Some? {
          assert y.value != x.value;
        } else if y.None? {
          assert x != Some(UnknownDocId);
        } else {
          assert y != Some(UnknownDocId);
        }
      }
      assert x.GetOr(UnknownDocId) !in KeyImage(rest);
    }
  }

  /** The keys of the aggregation are the images of the ids `should_expand` counted. */
  lemma AggregateKeys(chunks: seq<Chunk>)
    ensures Elements(Map(Aggregate(chunks), GroupId)) == KeyImage(DistinctDocIds(chunks))
    ensures |Aggregate(chunks)| == |KeyImage(DistinctDocIds(chunks))|
  {
    AggregateSpec(chunks);
    var ks := Map(chunks, DocKey);
    assert Elements(Dedup(ks)) == Elements(ks);
    assert Elements(ks) == KeyImage(DistinctDocIds(chunks)) by {
      forall x | x in Elements(ks) ensures x in KeyImage(DistinctDocIds(chunks)) {
        var i :| 0 <= i < |ks| && ks[i] == x;
        assert chunks[i] in chunks;
      }
    }
    DedupCard(ks);
  }

  /** The aggregation has as many groups as `should_expand` saw distinct ids, one fewer
      exactly when a missing id and the literal id `"unknown"` both occur (they share the
      group `"unknown"`). */
  lemma GroupCount(chunks: seq<Chunk>)
    ensures |Aggregate(chunks)|
         == |DistinctDocIds(chunks)| - (if Collide(DistinctDocIds(chunks)) then 1 else 0)
  {
    var ids := DistinctDocIds(chunks);
    AggregateKeys(chunks);
    if Collide(ids) {
      var rest := ids - {None};
      assert Some(UnknownDocId) in rest;
      assert KeyImage(rest) == KeyImage(ids);
      KeyImageCard(rest);
    } else {
      KeyImageCard(ids);
    }
  }

  /** `should_expand` read through the aggregation: it asks for more while the groups that
      `aggregate_documents` would build, plus one for a missing id merged into `"unknown"`,
      number fewer than `kDocs`. */
  lemma ShouldExpandByGroups(chunks: seq<Chunk>, kDocs: int)
    ensures ShouldExpand(chunks, kDocs) == Expand
        <==> |Aggregate(chunks)| + (if Collide(DistinctDocIds(chunks)) then 1 else 0) < kDocs
  {
    GroupCount(chunks);
  }
}

=== FILE: retrieval_graph.dfy ===
/** The retrieval workflow of `server/services/retrieval.py`, with the graph framework
    replaced by an explicit state machine, and `retrieval_service`'s ranking.

    The source graph puts no cap of its own on the number of expansion rounds; only the
    graph framework's recursion limit stops a run that never reaches its target, and it stops
    it with an error. Here a `fuel` budget bounds the rounds instead: each entry into
    `expand_k` spends one unit, and when the budget is spent a decision to expand leads to
    `aggregate_documents`, so the run always ends by aggregating what was collected. */
module RetrievalGraph {
  import opened Sequences
  import opened StableSort
  import opened Retrieval

  /** The nodes of the workflow graph, and its end. */
  datatype Node =
    | InitialRetrievalNode
    | ExpandKNode
    | ExpandedRetrievalNode
    | AggregateDocumentsNode
    | EndNode

  /** The edges of the workflow graph: the conditional edges leaving both retrieval nodes
      (`"expand"` to `expand_k`, `"enough"` to `aggregate_documents`) and the fixed edges
      `expand_k -> expanded_retrieval` and `aggregate_documents -> END`. */
  predicate Allowed(from: Node, to: Node) {
    match from
    case InitialRetrievalNode => to == ExpandKNode || to == AggregateDocumentsNode
    case ExpandKNode => to == ExpandedRetrievalNode
    case ExpandedRetrievalNode => to == ExpandKNode || to == AggregateDocumentsNode
    case AggregateDocumentsNode => to == EndNode
    case EndNode => false
  }

  /** Distance to the end when no further fuel is spent. */
  function StepsToEnd(n: Node): nat {
    match n
    case EndNode => 0
    case AggregateDocumentsNode => 1
    case ExpandedRetrievalNode => 2
    case ExpandKNode => 3
    case InitialRetrievalNode => 4
  }

  /** A finished run: the nodes visited in order, the final state, and how many expanded
      retrievals ran. */
  datatype Run = Run(trace: seq<Node>, state: RetrievalState, rounds: nat)

  function Visit(n: Node, r: Run): Run {
    Run([n] + r.trace, r.state, r.rounds + if n == ExpandedRetrievalNode then 1 else 0)
  }

  /** After a retrieval node: expand while `should_expand` says so and fuel remains. */
  predicate ExpandAgain(s: RetrievalState, fuel: nat) {
    ShouldExpand(s.retrievedChunks, s.kDocs) == Expand && fuel > 0
  }

  /** What a node does to the state. */
  function Step(search: Search, node: Node, s: RetrievalState): RetrievalState {
    match node
    case InitialRetrievalNode => InitialRetrieval(search, s)
    case ExpandKNode => ExpandK(s)
    case ExpandedRetrievalNode => ExpandedRetrieval(search, s)
    case AggregateDocumentsNode => AggregateDocuments(s)
    case EndNode => s
  }

  /** Where the graph goes after `node` has produced state `s`. */
  function Next(node: Node, s: RetrievalState, fuel: nat): (n: Node)
    requires node != EndNode
    ensures Allowed(node, n)
    ensures n == ExpandKNode ==> fuel > 0
    ensures n != ExpandKNode ==> StepsToEnd(n) < StepsToEnd(node)
  {
    match node
    case ExpandKNode => ExpandedRetrievalNode
    case AggregateDocumentsNode => EndNode
    case _ => if ExpandAgain(s, fuel) then ExpandKNode else AggregateDocumentsNode
  }

  /** Runs the workflow from `node` until its end; entering `expand_k` spends one unit of
      fuel. */
  function Execute(search: Search, node: Node, s: RetrievalState, fuel: nat): Run
    decreases fuel, StepsToEnd(node)
  {
    if node == EndNode then Run([EndNode], s, 0)
    else
      var s' := Step(search, node, s);
      var next := Next(node, s', fuel);
      Visit(node, Execute(search, next, s', if next == ExpandKNode then fuel - 1 else fuel))
  }

  /** The compiled workflow's `invoke`, from the entry point. */
  function Retrieve(search: Search, s: RetrievalState, fuel: nat): Run {
    Execute(search, InitialRetrievalNode, s, fuel)
  }

  /** Every run starts at its node, ends at END, and follows only edges of the graph. */
  lemma {:induction false} ExecuteFollowsGraph(search: Search, node: Node, s: RetrievalState, fuel: nat)
    ensures var t := Execute(search, node, s, fuel).trace;
            |t| > 0 && t[0] == node && t[|t| - 1] == EndNode
            && forall i :: 0 <= i < |t| - 1 ==> Allowed(t[i], t[i + 1])
    decreases fuel, StepsToEnd(node)
  {
    if node != EndNode {
      var s' := Step(search, node, s);
      var next := Next(node, s', fuel);
      ExecuteFollowsGraph(search, next, s', if next == ExpandKNode then fuel - 1 else fuel);
    }
  }

  /** `n` copies of a search result, one after the other. */
  function Repeat(chunks: seq<Chunk>, n: nat): seq<Chunk> {
    if n == 0 then [] else Repeat(chunks, n - 1) + chunks
  }

  /** The chunks held after the first search and `n` expanded retrievals. */
  function Collected(first: seq<Chunk>, more: seq<Chunk>, n: nat): seq<Chunk> {
    first + Repeat(more, n)
  }

  /** The run from `aggregate_documents`: aggregate, then stop. */
  lemma AggregateThenEnd(search: Search, s: RetrievalState, fuel: nat)
    ensures Execute(search, AggregateDocumentsNode, s, fuel)
         == Run([AggregateDocumentsNode, EndNode], AggregateDocuments(s), 0)
  {
    assert Execute(search, AggregateDocumentsNode, s, fuel)
        == Visit(AggregateDocumentsNode, Execute(search, EndNode, AggregateDocuments(s), fuel));
  }

  /** One round of the loop: `expand_k`, `expanded_retrieval`, then either another round
      (spending one unit of fuel) or aggregation and the end. */
  lemma Round(search: Search, s: RetrievalState, fuel: nat)
    ensures var s2 := ExpandedRetrieval(search, ExpandK(s));
            var r := Execute(search, ExpandKNode, s, fuel);
      && (ExpandAgain(s2, fuel) ==>
            r.rounds == Execute(search, ExpandKNode, s2, fuel - 1).rounds + 1
            && r.state == Execute(search, ExpandKNode, s2, fuel - 1).state)
      && (!ExpandAgain(s2, fuel) ==> r.rounds == 1 && r.state == AggregateDocuments(s2))
  {
    var s1 := ExpandK(s);
    var s2 := ExpandedRetrieval(search, s1);
    assert Execute(search, ExpandKNode, s, fuel) == Visit(ExpandKNode, Execute(search, ExpandedRetrievalNode, s1, fuel));
    if ExpandAgain(s2, fuel) {
      assert Execute(search, ExpandedRetrievalNode, s1, fuel)
          == Visit(ExpandedRetrievalNode, Execute(search, ExpandKNode, s2, fuel - 1));
    } else {
      assert Execute(search, ExpandedRetrievalNode, s1, fuel)
          == Visit(ExpandedRetrievalNode, Execute(search, AggregateDocumentsNode, s2, fuel));
      AggregateThenEnd(search, s2, fuel);
    }
  }

  /** The state after `n` rounds of `expand_k` followed by `expanded_retrieval`. */
  function Rounds(search: Search, s: RetrievalState, n: nat): RetrievalState
    decreases n
  {
    if n == 0 then s else Rounds(search, ExpandedRetrieval(search, ExpandK(s)), n - 1)
  }

  lemma RoundsSucc(search: Search, s: RetrievalState, n: nat)
    ensures Rounds(search, s, n + 1) == Rounds(search, ExpandedRetrieval(search, ExpandK(s)), n)
  {
  }

  /** Each round appends the same search result, at breadth `k + 25`, and changes no
      field other than the chunks and `expanded_k`. */
  lemma {:induction false} RoundsChunks(search: Search, s: RetrievalState, n: nat)
    ensures Rounds(search, s, n).retrievedChunks
         == s.retrievedChunks + Repeat(search(s.query, s.k + ExpansionStep), n)
    ensures Rounds(search, s, n).query == s.query
    ensures Rounds(search, s, n).k == s.k
    ensures Rounds(search, s, n).kDocs == s.kDocs
    decreases n
  {
    if n > 0 {
      var s2 := ExpandedRetrieval(search, ExpandK(s));
      var more := search(s.query, s.k + ExpansionStep);
      RoundsChunks(search, s2, n - 1);
      RepeatFront(more, n - 1);
      assert s2.retrievedChunks == s.retrievedChunks + more;
    }
  }

  /** `Repeat` read from the front. */
  lemma {:induction false} RepeatFront(chunks: seq<Chunk>, n: nat)
    ensures Repeat(chunks, n + 1) == chunks + Repeat(chunks, n)
  {
    if n > 0 {
      RepeatFront(chunks, n - 1);
    }
  }

  /** The expansion loop entered at `expand_k` runs between one and `fuel + 1` rounds. */
  lemma {:induction false} LoopRounds(search: Search, s: RetrievalState, fuel: nat)
    ensures 1 <= Execute(search, ExpandKNode, s, fuel).rounds <= fuel + 1
    decreases fuel
  {
    var s2 := ExpandedRetrieval(search, ExpandK(s));
    Round(search, s, fuel);
    if ExpandAgain(s2, fuel) {
      LoopRounds(search, s2, fuel - 1);
    }
  }

  /** After its rounds, the expansion loop aggregates the chunks it holds. */
  lemma {:induction false} LoopState(search: Search, s: RetrievalState, fuel: nat)
    ensures Execute(search, ExpandKNode, s, fuel).state
         == AggregateDocuments(Rounds(search, s, Execute(search, ExpandKNode, s, fuel).rounds))
    decreases fuel
  {
    var s2 := ExpandedRetrieval(search, ExpandK(s));
    Round(search, s, fuel);
    if ExpandAgain(s2, fuel) {
      LoopState(search, s2, fuel - 1);
      RoundsSucc(search, s, Execute(search, ExpandKNode, s2, fuel - 1).rounds);
    } else {
      assert Rounds(search, s, 1) == s2;
    }
  }

  /** The loop enters each further round only because the target was not met, and stops
      before its budget runs out only once the target is met. */
  lemma {:induction false} ExpansionDecisions(search: Search, s: RetrievalState, fuel: nat)
    ensures var r := Execute(search, ExpandKNode, s, fuel);
      && (forall i :: 1 <= i < r.rounds ==> ShouldExpand(Rounds(search, s, i).retrievedChunks, s.kDocs) == Expand)
      && (r.rounds <= fuel ==> ShouldExpand(Rounds(search, s, r.rounds).retrievedChunks, s.kDocs) == Enough)
    decreases fuel
  {
    var s2 := ExpandedRetrieval(search, ExpandK(s));
    Round(search, s, fuel);
    var r := Execute(search, ExpandKNode, s, fuel);
    assert Rounds(search, s, 1) == s2;
    if ExpandAgain(s2, fuel) {
      ExpansionDecisions(search, s2, fuel - 1);
      var r' := Execute(search, ExpandKNode, s2, fuel - 1);
      assert r.rounds == r'.rounds + 1;
      RoundsSucc(search, s, r'.rounds);
      forall i | 1 <= i < r.rounds
        ensures ShouldExpand(Rounds(search, s, i).retrievedChunks, s.kDocs) == Expand
      {
        RoundsSucc(search, s, i - 1);
      }
    }
  }

  /** Entered after an "expand", the loop decided "expand" before each of its rounds,
      counting the chunks held at that point, and "enough" when it stopped with fuel
      left. */
  lemma LoopDecisions(search: Search, s: RetrievalState, fuel: nat)
    requires ShouldExpand(s.retrievedChunks, s.kDocs) == Expand
    ensures var more := search(s.query, s.k + ExpansionStep);
            var n := Execute(search, ExpandKNode, s, fuel).rounds;
      && (forall i :: 0 <= i < n ==> ShouldExpand(s.retrievedChunks + Repeat(more, i), s.kDocs) == Expand)
      && (n <= fuel ==> ShouldExpand(s.retrievedChunks + Repeat(more, n), s.kDocs) == Enough)
  {
    var more := search(s.query, s.k + ExpansionStep);
    ExpansionDecisions(search, s, fuel);
    RoundsChunks(search, s, Execute(search, ExpandKNode, s, fuel).rounds);
    forall i | 0 <= i < Execute(search, ExpandKNode, s, fuel).rounds
      ensures ShouldExpand(s.retrievedChunks + Repeat(more, i), s.kDocs) == Expand
    {
      RoundsChunks(search, s, i);
      if i == 0 {
        assert s.retrievedChunks + Repeat(more, i) == s.retrievedChunks;
      }
    }
  }

  /** What a complete run computes. With `first` the result of the initial search and
      `more` the result of the search at breadth `k + 25`: the chunks are `first`
      followed by `rounds` copies of `more`, at most `fuel` rounds ran, each because the
      target was not yet met, the run stopped early only once the target was met, and the
      documents are the aggregation of all chunks. `k` is never changed. */
  lemma RetrieveOutcome(search: Search, s: RetrievalState, fuel: nat)
    ensures var r := Retrieve(search, s, fuel);
            var first := search(s.query, s.k);
            var more := search(s.query, s.k + ExpansionStep);
      && r.rounds <= fuel
      && r.state.retrievedChunks == Collected(first, more, r.rounds)
      && (forall i :: 0 <= i < r.rounds ==> ShouldExpand(Collected(first, more, i), s.kDocs) == Expand)
      && (r.rounds < fuel ==> ShouldExpand(r.state.retrievedChunks, s.kDocs) == Enough)
      && r.state.documents == Aggregate(r.state.retrievedChunks)
      && r.state.query == s.query && r.state.k == s.k && r.state.kDocs == s.kDocs
  {
    var first := search(s.query, s.k);
    var more := search(s.query, s.k + ExpansionStep);
    var s1 := InitialRetrieval(search, s);
    var r := Retrieve(search, s, fuel);
    if ExpandAgain(s1, fuel) {
      assert r == Visit(InitialRetrievalNode, Execute(search, ExpandKNode, s1, fuel - 1));
      LoopRounds(search, s1, fuel - 1);
      LoopState(search, s1, fuel - 1);
      RoundsChunks(search, s1, r.rounds);
      LoopDecisions(search, s1, fuel - 1);
    } else {
      assert r == Visit(InitialRetrievalNode, Execute(search, AggregateDocumentsNode, s1, fuel));
      AggregateThenEnd(search, s1, fuel);
    }
  }

  /** If the initial search already finds `kDocs` distinct ids, no expansion runs: the
      workflow goes straight to aggregation. */
  lemma EnoughAtOnce(search: Search, s: RetrievalState, fuel: nat)
    requires ShouldExpand(search(s.query, s.k), s.kDocs) == Enough
    ensures Retrieve(search, s, fuel).trace == [InitialRetrievalNode, AggregateDocumentsNode, EndNode]
    ensures Retrieve(search, s, fuel).rounds == 0
    ensures Retrieve(search, s, fuel).state.retrievedChunks == search(s.query, s.k)
  {
    var s1 := InitialRetrieval(search, s);
    assert Retrieve(search, s, fuel) == Visit(InitialRetrievalNode, Execute(search, AggregateDocumentsNode, s1, fuel));
    AggregateThenEnd(search, s1, fuel);
  }

  /** Repeated copies of a search result add no id beyond the first copy. */
  lemma {:induction false} RepeatIds(first: seq<Chunk>, more: seq<Chunk>, n: nat)
    requires n >= 1
    ensures DistinctDocIds(Collected(first, more, n)) == DistinctDocIds(first + more)
  {
    if n > 1 {
      RepeatIds(first, more, n - 1);
      assert first + Repeat(more, n) == first + Repeat(more, n - 1) + more;
      DistinctDocIdsAppend(first + Repeat(more, n - 1), more);
      DistinctDocIdsAppend(first, more);
    } else {
      assert Repeat(more, 1) == more;
    }
  }

  /** Without a cap of its own the source cannot reach its target by expanding: if one
      expansion round does not reach it, no number of rounds does, since every round repeats
      the same search. */
  lemma UncappedExpansionNeverEnough(search: Search, s: RetrievalState, n: nat)
    requires n >= 1
    requires ShouldExpand(search(s.query, s.k) + search(s.query, s.k + ExpansionStep), s.kDocs) == Expand
    ensures ShouldExpand(Collected(search(s.query, s.k), search(s.query, s.k + ExpansionStep), n), s.kDocs) == Expand
  {
    RepeatIds(search(s.query, s.k), search(s.query, s.k + ExpansionStep), n);
  }

  /** In that situation the capped workflow spends its whole budget and then aggregates
      what it collected. */
  lemma StalledRunSpendsAllFuel(search: Search, s: RetrievalState, fuel: nat)
    requires ShouldExpand(search(s.query, s.k), s.kDocs) == Expand
    requires ShouldExpand(search(s.query, s.k) + search(s.query, s.k + ExpansionStep), s.kDocs) == Expand
    ensures Retrieve(search, s, fuel).rounds == fuel
    ensures Retrieve(search, s, fuel).state.documents == Aggregate(Retrieve(search, s, fuel).state.retrievedChunks)
  {
    RetrieveOutcome(search, s, fuel);
    var r := Retrieve(search, s, fuel);
    if r.rounds >= 1 {
      UncappedExpansionNeverEnough(search, s, r.rounds);
    } else {
      assert r.state.retrievedChunks == search(s.query, s.k);
    }
  }

  /** The ranking key of `retrieval_service`: the number of chunks of a document. */
  function ChunkCount(g: Group): int {
    |g.chunks|
  }


  /** `sorted(documents.items(), key=len(chunks), reverse=True)[:k_docs]`: the first
      `kDocs` documents (Python slice) by chunk count, highest first, ties in dict order;
      every one of them is an aggregated document, none is listed twice, and no document
      left out has more chunks than one listed. */
  function RankDocuments(documents: seq<Group>, kDocs: int): (r: seq<Group>)
    ensures |r| == SliceEnd(|documents|, kDocs)
    ensures SortedDesc(r, ChunkCount)
    ensures forall i :: 0 <= i < |r| ==> r[i] in documents
    ensures forall c :: FilterBy(r, ChunkCount, c) <= FilterBy(documents, ChunkCount, c)
    ensures forall g, i :: g in documents && g !in r && 0 <= i < |r| ==> ChunkCount(g) <= ChunkCount(r[i])
  {
    TopN(documents, ChunkCount, kDocs)
  }

  /** Ranking never lists a document id twice when the aggregation did not. */
  lemma RankDocumentsDistinct(documents: seq<Group>, kDocs: int)
    requires DistinctBy(documents, GroupId)
    ensures DistinctBy(RankDocuments(documents, kDocs), GroupId)
  {
    TopNDistinctBy(documents, ChunkCount, kDocs, GroupId);
  }

  /** `retrieval_service(query, k_docs, k_chunks)`: runs the workflow from a state holding
      the query, `k = k_chunks` and `k_docs`, then ranks the aggregated documents. */
  function RetrievalService(search: Search, query: string, kDocs: int, kChunks: int, fuel: nat): seq<Group> {
    var s := RetrievalState(query, kChunks, kChunks, kDocs, [], []);
    RankDocuments(Retrieve(search, s, fuel).state.documents, kDocs)
  }

  /** Ranking the aggregation of some chunks lists distinct ids, each with exactly its
      chunks in retrieval order. */
  lemma RankAggregated(chunks: seq<Chunk>, kDocs: int)
    ensures DistinctBy(RankDocuments(Aggregate(chunks), kDocs), GroupId)
    ensures forall i :: 0 <= i < |RankDocuments(Aggregate(chunks), kDocs)| ==>
              var g := RankDocuments(Aggregate(chunks), kDocs)[i];
              g.chunks == FilterBy(chunks, DocKey, g.docId) && |g.chunks| > 0
  {
    var docs := Aggregate(chunks);
    AggregateSpec(chunks);
    assert DistinctBy(docs, GroupId) by {
      assert Distinct(Map(docs, GroupId));
    }
    RankDocumentsDistinct(docs, kDocs);
    var r := RankDocuments(docs, kDocs);
    forall i | 0 <= i < |r|
      ensures r[i].chunks == FilterBy(chunks, DocKey, r[i].docId) && |r[i].chunks| > 0
    {
      var j :| 0 <= j < |docs| && docs[j] == r[i];
    }
  }

  /** The service's answer: the chunks are the first search at breadth `k_chunks` followed
      by some number of copies of the search at breadth `k_chunks + 25`; the answer lists
      the `k_docs` largest groups (Python slice) by chunk count, highest first, with distinct
      ids, each holding exactly the retrieved chunks of its id in retrieval order. */
  lemma RetrievalServiceOutcome(search: Search, query: string, kDocs: int, kChunks: int, fuel: nat)
    ensures var s := RetrievalState(query, kChunks, kChunks, kDocs, [], []);
            var run := Retrieve(search, s, fuel);
            var r := RetrievalService(search, query, kDocs, kChunks, fuel);
      && run.rounds <= fuel
      && run.state.retrievedChunks
         == Collected(search(query, kChunks), search(query, kChunks + ExpansionStep), run.rounds)
      && |r| == SliceEnd(|Aggregate(run.state.retrievedChunks)|, kDocs)
      && SortedDesc(r, ChunkCount)
      && DistinctBy(r, GroupId)
      && (forall i :: 0 <= i < |r| ==>
            r[i].chunks == FilterBy(run.state.retrievedChunks, DocKey, r[i].docId) && |r[i].chunks| > 0)
  {
    var s := RetrievalState(query, kChunks, kChunks, kDocs, [], []);
    RetrieveOutcome(search, s, fuel);
    RankAggregated(Retrieve(search, s, fuel).state.retrievedChunks, kDocs);
  }
}

=== FILE: sequences.dfy ===
/** Sequence helpers shared by the citation graph and the retrieval pipeline. */
module Sequences {

  /** No element occurs twice. */
  ghost predicate Distinct<T>(s: seq<T>) {
    forall i, j :: 0 <= i < j < |s| ==> s[i] != s[j]
  }

  /** No two elements share the same `f`-image (e.g. no two groups share a key). */
  ghost predicate DistinctBy<T, K>(s: seq<T>, f: T -> K) {
    forall i, j :: 0 <= i < j < |s| ==> f(s[i]) != f(s[j])
  }

  /** End index of Python's slice `s[:n]` on a sequence of length `len`:
      a negative `n` counts from the end, and the result is clamped to `0..len`. */
  function SliceEnd(len: nat, n: int): (e: nat)
    ensures e <= len
  {
    if 0 <= n then (if n <= len then n else len)
    else if 0 <= len + n then len + n
    else 0
  }

  /** Python's `s[:n]`. */
  function Take<T>(s: seq<T>, n: int): (r: seq<T>)
    ensures r <= s
    ensures |r| == SliceEnd(|s|, n)
  {
    s[..SliceEnd(|s|, n)]
  }

  /** The elements of `s` whose `f`-image is `c`, in their original order. */
  function FilterBy<T, K(==)>(s: seq<T>, f: T -> K, c: K): (r: seq<T>)
    ensures |r| <= |s|
    ensures forall i :: 0 <= i < |r| ==> f(r[i]) == c
  {
    if s == [] then []
    else FilterBy(s[..|s| - 1], f, c) + (if f(s[|s| - 1]) == c then [s[|s| - 1]] else [])
  }

  /** Filtering distributes over concatenation. */
  lemma {:induction false} FilterByAppend<T, K>(a: seq<T>, b: seq<T>, f: T -> K, c: K)
    ensures FilterBy(a + b, f, c) == FilterBy(a, f, c) + FilterBy(b, f, c)
    decreases |b|
  {
    if b == [] {
      assert a + b == a;
    } else {
      var b' := b[..|b| - 1];
      assert (a + b)[..|a + b| - 1] == a + b';
      assert (a + b)[|a + b| - 1] == b[|b| - 1];
      FilterByAppend(a, b', f, c);
    }
  }

  /** A sequence none of whose elements has `f`-image `c` filters to nothing. */
  lemma FilterByNone<T, K>(s: seq<T>, f: T -> K, c: K)
    requires forall i :: 0 <= i < |s| ==> f(s[i]) != c
    ensures FilterBy(s, f, c) == []
  {
  }

  /** The distinct elements of `s` in order of first appearance. */
  function Dedup<T(==)>(s: seq<T>): (r: seq<T>)
    ensures Distinct(r)
    ensures forall i :: 0 <= i < |r| ==> r[i] in s
    ensures forall i :: 0 <= i < |s| ==> s[i] in r
  {
    if s == [] then []
    else
      var d := Dedup(s[..|s| - 1]);
      if s[|s| - 1] in s[..|s| - 1] then d else d + [s[|s| - 1]]
  }

  /** How many elements of `s` occur there for the first time, i.e. how many distinct
      values `s` holds. */
  function CountDistinct<T(==)>(s: seq<T>): nat {
    if s == [] then 0
    else CountDistinct(s[..|s| - 1]) + (if s[|s| - 1] in s[..|s| - 1] then 0 else 1)
  }

  /** Counting first appearances is measuring the deduplicated sequence. */
  lemma {:induction false} CountDistinctDedup<T>(s: seq<T>)
    ensures CountDistinct(s) == |Dedup(s)|
  {
    if s != [] {
      CountDistinctDedup(s[..|s| - 1]);
    }
  }

  /** Deduplicating one more element keeps it only when it is new. */
  lemma DedupSnoc<T>(s: seq<T>, x: T)
    ensures Dedup(s + [x]) == if x in s then Dedup(s) else Dedup(s) + [x]
  {
    assert (s + [x])[..|s|] == s;
  }

  /** Deduplication keeps exactly the elements. */
  lemma DedupMembers<T>(s: seq<T>, x: T)
    ensures x in Dedup(s) <==> x in s
  {
    if x in s {
      var i :| 0 <= i < |s| && s[i] == x;
    }
  }

  /** A duplicate-free sequence is its own deduplication. */
  lemma {:induction false} DedupOfDistinct<T>(s: seq<T>)
    requires Distinct(s)
    ensures Dedup(s) == s
  {
    if s != [] {
      var s' := s[..|s| - 1];
      assert Distinct(s');
      DedupOfDistinct(s');
      assert s[|s| - 1] !in s';
      assert s == s' + [s[|s| - 1]];
    }
  }

  /** Deduplicating a prefix first changes nothing. */
  lemma {:induction false} DedupDedup<T>(s: seq<T>, t: seq<T>)
    ensures Dedup(Dedup(s) + t) == Dedup(s + t)
    decreases |t|
  {
    if t == [] {
      assert Dedup(s) + t == Dedup(s);
      assert s + t == s;
      DedupOfDistinct(Dedup(s));
    } else {
      var t' := t[..|t| - 1];
      var x := t[|t| - 1];
      DedupDedup(s, t');
      SnocAssoc(Dedup(s), t);
      SnocAssoc(s, t);
      DedupSnoc(Dedup(s) + t', x);
      DedupSnoc(s + t', x);
      DedupMembers(s, x);
    }
  }

  /** Regrouping the last element of `t` behind `a`. */
  lemma SnocAssoc<T>(a: seq<T>, t: seq<T>)
    requires t != []
    ensures a + t == (a + t[..|t| - 1]) + [t[|t| - 1]]
  {
    assert t == t[..|t| - 1] + [t[|t| - 1]];
  }

  /** `f` applied to every element, in order. */
  function Map<A, B>(s: seq<A>, f: A -> B): (r: seq<B>)
    ensures |r| == |s|
    ensures forall i :: 0 <= i < |s| ==> r[i] == f(s[i])
  {
    seq(|s|, i requires 0 <= i < |s| => f(s[i]))
  }

  /** The set of elements of a sequence. */
  function Elements<T(==)>(s: seq<T>): set<T> {
    set x | x in s
  }

  /** A duplicate-free sequence has as many elements as its element set. */
  lemma {:induction false} DistinctCard<T>(s: seq<T>)
    requires Distinct(s)
    ensures |Elements(s)| == |s|
  {
    if s != [] {
      var s' := s[..|s| - 1];
      var x := s[|s| - 1];
      assert Distinct(s');
      DistinctCard(s');
      assert s == s' + [x];
      assert x !in s';
      assert Elements(s) == Elements(s') + {x};
    }
  }

  /** Removing duplicates keeps exactly one copy of each element. */
  lemma DedupCard<T>(s: seq<T>)
    ensures |Dedup(s)| == |Elements(s)|
  {
    DistinctCard(Dedup(s));
    assert Elements(Dedup(s)) == Elements(s);
  }
}

=== FILE: stable_sort.dfy ===
/** Python's `sorted(xs, key=key, reverse=True)`: a stable sort into non-increasing key
    order. Stability means that elements with equal keys keep their input order; this is
    stated through `FilterBy`: for every key value, the elements carrying it appear in the
    output exactly as they appear in the input. */
module StableSort {
  import opened Sequences

  /** Keys never increase from left to right. */
  ghost predicate SortedDesc<T>(s: seq<T>, key: T -> int) {
    forall i, j :: 0 <= i < j < |s| ==> key(s[i]) >= key(s[j])
  }

  /** Inserts `x` behind every leading element whose key is at least `key(x)`, so that
      in a non-increasing sequence `x` follows the earlier elements it ties with. */
  function Insert<T>(t: seq<T>, x: T, key: T -> int): seq<T> {
    if t == [] then [x]
    else if key(t[0]) >= key(x) then [t[0]] + Insert(t[1..], x, key)
    else [x] + t
  }

  /** Putting an element in front of a non-increasing sequence whose head it does not
      undercut keeps it non-increasing. */
  lemma ConsSorted<T>(h: T, t: seq<T>, key: T -> int)
    requires SortedDesc(t, key)
    requires t != [] ==> key(h) >= key(t[0])
    ensures SortedDesc([h] + t, key)
  {
    var r := [h] + t;
    forall i, j | 0 <= i < j < |r| ensures key(r[i]) >= key(r[j]) {
      assert r[j] == t[j - 1];
      if i > 0 {
        assert r[i] == t[i - 1];
      } else if j > 1 {
        assert key(t[0]) >= key(t[j - 1]);
      }
    }
  }

  /** Inserting adds exactly one element, and the result starts with `x` or with the old head. */
  lemma {:induction false} InsertShape<T>(t: seq<T>, x: T, key: T -> int)
    ensures |Insert(t, x, key)| == |t| + 1
    ensures Insert(t, x, key)[0] == x || (t != [] && Insert(t, x, key)[0] == t[0])
    ensures multiset(Insert(t, x, key)) == multiset(t) + multiset{x}
  {
    if t != [] && key(t[0]) >= key(x) {
      InsertShape(t[1..], x, key);
      assert t == [t[0]] + t[1..];
    }
  }

  /** Inserting into a non-increasing sequence keeps it non-increasing. */
  lemma {:induction false} InsertSorted<T>(t: seq<T>, x: T, key: T -> int)
    requires SortedDesc(t, key)
    ensures SortedDesc(Insert(t, x, key), key)
  {
    if t != [] {
      if key(t[0]) >= key(x) {
        var tail := t[1..];
        assert SortedDesc(tail, key);
        InsertSorted(tail, x, key);
        InsertShape(tail, x, key);
        var rest := Insert(tail, x, key);
        assert key(t[0]) >= key(rest[0]);
        ConsSorted(t[0], rest, key);
      } else {
        ConsSorted(x, t, key);
      }
    }
  }

  /** Stable insertion sort into non-increasing key order. */
  function SortDesc<T>(s: seq<T>, key: T -> int): seq<T> {
    if s == [] then []
    else Insert(SortDesc(s[..|s| - 1], key), s[|s| - 1], key)
  }

  /** The sort yields a non-increasing permutation of its input. */
  lemma {:induction false} SortDescSpec<T>(s: seq<T>, key: T -> int)
    ensures |SortDesc(s, key)| == |s|
    ensures SortedDesc(SortDesc(s, key), key)
    ensures multiset(SortDesc(s, key)) == multiset(s)
  {
    if s != [] {
      var s' := s[..|s| - 1];
      SortDescSpec(s', key);
      InsertShape(SortDesc(s', key), s[|s| - 1], key);
      InsertSorted(SortDesc(s', key), s[|s| - 1], key);
      assert s == s' + [s[|s| - 1]];
    }
  }

  /** Inserting `x` puts it behind every element it ties with. */
  lemma {:induction false} InsertStable<T>(t: seq<T>, x: T, key: T -> int, c: int)
    requires SortedDesc(t, key)
    ensures FilterBy(Insert(t, x, key), key, c)
         == FilterBy(t, key, c) + (if key(x) == c then [x] else [])
  {
    if t == [] {
      assert Insert(t, x, key) == [x];
      FilterBySingle(x, key, c);
    } else if key(t[0]) >= key(x) {
      var tail := t[1..];
      assert SortedDesc(tail, key);
      InsertStable(tail, x, key, c);
      assert Insert(t, x, key) == [t[0]] + Insert(tail, x, key);
      assert t == [t[0]] + tail;
      ConsFilter(t[0], tail, Insert(tail, x, key), key, c, if key(x) == c then [x] else []);
    } else {
      InsertInFront(t, x, key, c);
    }
  }

  /** Filtering a common head in front of two sequences keeps a suffix relation. */
  lemma ConsFilter<T>(h: T, a: seq<T>, b: seq<T>, key: T -> int, c: int, e: seq<T>)
    requires FilterBy(b, key, c) == FilterBy(a, key, c) + e
    ensures FilterBy([h] + b, key, c) == FilterBy([h] + a, key, c) + e
  {
    FilterByAppend([h], b, key, c);
    FilterByAppend([h], a, key, c);
    assert FilterBy([h], key, c) + (FilterBy(a, key, c) + e)
        == (FilterBy([h], key, c) + FilterBy(a, key, c)) + e;
  }

  lemma FilterBySingle<T>(x: T, key: T -> int, c: int)
    ensures FilterBy([x], key, c) == if key(x) == c then [x] else []
  {
    assert [x][..0] == [];
  }

  /** When `x` outranks the head of `t`, it outranks all of `t`, so it ties with nothing there. */
  lemma InsertInFront<T>(t: seq<T>, x: T, key: T -> int, c: int)
    requires SortedDesc(t, key)
    requires t != [] && key(t[0]) < key(x)
    ensures FilterBy([x] + t, key, c) == FilterBy(t, key, c) + (if key(x) == c then [x] else [])
  {
    FilterByAppend([x], t, key, c);
    FilterBySingle(x, key, c);
    if key(x) == c {
      assert forall i :: 0 <= i < |t| ==> key(t[i]) <= key(t[0]);
      FilterByNone(t, key, c);
    }
  }

  /** The sort is stable: for each key value, the elements with that key keep their order. */
  lemma {:induction false} SortStable<T>(s: seq<T>, key: T -> int, c: int)
    ensures FilterBy(SortDesc(s, key), key, c) == FilterBy(s, key, c)
  {
    if s != [] {
      var s' := s[..|s| - 1];
      SortStable(s', key, c);
      SortDescSpec(s', key);
      InsertStable(SortDesc(s', key), s[|s| - 1], key, c);
    }
  }

  /** In a sequence whose elements have pairwise distinct `f`-images, each element occurs once. */
  lemma {:induction false} DistinctByCount<T, K>(s: seq<T>, f: T -> K, x: T)
    requires DistinctBy(s, f)
    ensures multiset(s)[x] <= 1
  {
    if s != [] {
      var s' := s[..|s| - 1];
      assert s == s' + [s[|s| - 1]];
      DistinctByCount(s', f, x);
      if s[|s| - 1] == x {
        assert x !in s';
      }
    }
  }

  /** Reordering keeps the images of `f` pairwise distinct. */
  lemma PermutationKeepsDistinctBy<T, K>(a: seq<T>, b: seq<T>, f: T -> K)
    requires multiset(a) == multiset(b)
    requires DistinctBy(a, f)
    ensures DistinctBy(b, f)
  {
    forall i, j | 0 <= i < j < |b|
      ensures f(b[i]) != f(b[j])
    {
      if f(b[i]) == f(b[j]) {
        assert b[i] in multiset(a);
        assert b[j] in multiset(a);
        var p :| 0 <= p < |a| && a[p] == b[i];
        var q :| 0 <= q < |a| && a[q] == b[j];
        assert p == q;
        assert b == b[..j] + b[j..];
        assert b[i] in b[..j];
        assert b[j] in b[j..];
        assert multiset(b)[b[i]] >= 2;
        DistinctByCount(a, f, b[i]);
        assert false;
      }
    }
  }

  /** The first `n` elements of the stable sort (Python's `sorted(...)[:n]`): a prefix of a
      sorted permutation of the input, with key ties in input order, and no element left out
      that outranks a chosen one. */
  function TopN<T>(s: seq<T>, key: T -> int, n: int): (r: seq<T>)
    ensures |r| == SliceEnd(|s|, n)
    ensures SortedDesc(r, key)
    ensures forall i :: 0 <= i < |r| ==> r[i] in s
    ensures forall c :: FilterBy(r, key, c) <= FilterBy(s, key, c)
    ensures forall y, i :: y in s && y !in r && 0 <= i < |r| ==> key(y) <= key(r[i])
  {
    SortDescSpec(s, key);
    TopNMembers(s, key, n);
    TopNStable(s, key, n);
    TopNDominates(s, key, n);
    Take(SortDesc(s, key), n)
  }

  lemma TopNMembers<T>(s: seq<T>, key: T -> int, n: int)
    ensures forall i :: 0 <= i < |Take(SortDesc(s, key), n)| ==> Take(SortDesc(s, key), n)[i] in s
  {
    var full := SortDesc(s, key);
    SortDescSpec(s, key);
    forall i | 0 <= i < |Take(full, n)| ensures Take(full, n)[i] in s {
      assert full[i] in multiset(full);
    }
  }

  lemma TopNStable<T>(s: seq<T>, key: T -> int, n: int)
    ensures forall c :: FilterBy(Take(SortDesc(s, key), n), key, c) <= FilterBy(s, key, c)
  {
    var full := SortDesc(s, key);
    var r := Take(full, n);
    assert full == r + full[|r|..];
    forall c ensures FilterBy(r, key, c) <= FilterBy(s, key, c) {
      SortStable(s, key, c);
      FilterByAppend(r, full[|r|..], key, c);
    }
  }

  lemma TopNDominates<T>(s: seq<T>, key: T -> int, n: int)
    ensures forall y, i ::
              y in s && y !in Take(SortDesc(s, key), n) && 0 <= i < |Take(SortDesc(s, key), n)| ==>
                key(y) <= key(Take(SortDesc(s, key), n)[i])
  {
    var full := SortDesc(s, key);
    SortDescSpec(s, key);
    var r := Take(full, n);
    forall y, i | y in s && y !in r && 0 <= i < |r| ensures key(y) <= key(r[i]) {
      assert y in multiset(full);
      var j :| 0 <= j < |full| && full[j] == y;
      assert j >= |r|;
      assert r[i] == full[i];
    }
  }

  /** Taking the top `n` keeps pairwise distinct `f`-images pairwise distinct. */
  lemma TopNDistinctBy<T, K>(s: seq<T>, key: T -> int, n: int, f: T -> K)
    requires DistinctBy(s, f)
    ensures DistinctBy(TopN(s, key, n), f)
  {
    SortDescSpec(s, key);
    PermutationKeepsDistinctBy(s, SortDesc(s, key), f);
  }
}

=== FILE: weighted_citations.dfy ===
/** The weighted graph that `weighted_pagerank` builds before it hands over to the graph
    library's PageRank: one weight per citation, derived from the self-citation penalty and
    the recency boost of the cited paper. Weights are exact reals. */
module WeightedCitations {
  import opened CitationNetwork

  /** Age of a paper: how many years before `currentYear` it appeared; papers dated in the
      future count as age 0. */
  function Age(currentYear: int, year: int): (a: nat)
    ensures year >= currentYear ==> a == 0
    ensures year < currentYear ==> year + a == currentYear
  {
    if currentYear - year > 0 then currentYear - year else 0
  }

  /** The recency multiplier `1 + boost / (1 + age)`: the part above 1, scaled by
      `1 + age`, gives back the boost. For a non-negative boost it lies between 1 and
      `1 + boost`, reaching `1 + boost` at age 0. */
  function RecencyFactor(boost: real, age: nat): (f: real)
    ensures (f - 1.0) * (1 + age) as real == boost
    ensures 0.0 <= boost ==> 1.0 <= f <= 1.0 + boost
    ensures age == 0 ==> f == 1.0 + boost
  {
    var d := (1 + age) as real;
    assert 1.0 <= d;
    assert 0.0 <= boost ==> boost / d <= boost by {
      if 0.0 <= boost {
        assert boost / d * d == boost;
      }
    }
    1.0 + boost / d
  }

  /** Older papers never get a larger multiplier. */
  lemma RecencyFactorAntitone(boost: real, younger: nat, older: nat)
    requires 0.0 <= boost
    requires younger <= older
    ensures RecencyFactor(boost, older) <= RecencyFactor(boost, younger)
  {
    var dy := (1 + younger) as real;
    var dold := (1 + older) as real;
    assert dy <= dold;
    assert boost / dold * dold == boost;
    assert boost / dy * dy == boost;
    assert boost / dold * dy <= boost / dold * dold;
    assert boost / dold * dy <= boost / dy * dy;
  }

  /** For a positive boost the multiplier strictly falls with age: every extra year of
      age lowers the weight of a citation to the paper. */
  lemma RecencyFactorDecreasing(boost: real, younger: nat, older: nat)
    requires 0.0 < boost
    requires younger < older
    ensures RecencyFactor(boost, older) < RecencyFactor(boost, younger)
  {
    DivDecreasing(boost, (1 + younger) as real, (1 + older) as real);
  }

  /** Dividing a positive number by a larger positive divisor gives a smaller quotient. */
  lemma DivDecreasing(b: real, x: real, y: real)
    requires 0.0 < b
    requires 0.0 < x < y
    ensures b / y < b / x
  {
    assert b / y * y == b && b / x * x == b;
    assert 0.0 < b / y;
    assert b / y * x < b / y * y;
  }

  /** The recorded year of `p`, if it is truthy. */
  predicate HasYear(g: Network, p: PaperId) {
    p in g.years && g.years[p] != 0
  }

  /** The weight of one citation: 1.0, times `penalty` for a self-citation, times the
      recency factor when the cited paper has a year. */
  function EdgeWeight(g: Network, e: Edge, boost: real, penalty: real, currentYear: int): (w: real)
    ensures e.citing != e.cited && !HasYear(g, e.cited) ==> w == 1.0
    ensures e.citing == e.cited && !HasYear(g, e.cited) ==> w == penalty
    ensures 0.0 <= boost && e.citing != e.cited ==> 1.0 <= w <= 1.0 + boost
    ensures 0.0 <= boost && 0.0 <= penalty ==> 0.0 <= w
    ensures 0.0 <= boost && 0.0 < penalty ==> 0.0 < w
    ensures HasYear(g, e.cited) ==>
              w == (if e.citing == e.cited then penalty else 1.0)
                   * RecencyFactor(boost, Age(currentYear, g.years[e.cited]))
    ensures (0.0 <= boost && HasYear(g, e.cited) && g.years[e.cited] >= currentYear)
              ==> w == (if e.citing == e.cited then penalty else 1.0) * (1.0 + boost)
  {
    var base := if e.citing == e.cited then 1.0 * penalty else 1.0;
    if HasYear(g, e.cited) then
      var f := RecencyFactor(boost, Age(currentYear, g.years[e.cited]));
      assert 0.0 <= boost && 0.0 <= penalty ==> 0.0 <= base * f;
      assert 0.0 <= boost && 0.0 < penalty ==> 0.0 < base * f;
      base * f
    else base
  }

  /** A self-citation weighs `penalty` times what a citation from another paper to the
      same paper weighs. */
  lemma SelfCitationPenalty(g: Network, p: PaperId, q: PaperId, boost: real, penalty: real, currentYear: int)
    requires q != p
    ensures EdgeWeight(g, Edge(p, p), boost, penalty, currentYear)
         == penalty * EdgeWeight(g, Edge(q, p), boost, penalty, currentYear)
  {
  }

  /** Among citations from other papers, a more recent cited paper weighs at least as much. */
  lemma RecencyOrder(g: Network, u: PaperId, v: PaperId, x: PaperId, y: PaperId,
                     boost: real, penalty: real, currentYear: int)
    requires 0.0 <= boost
    requires u != v && x != y
    requires HasYear(g, v) && HasYear(g, y) && g.years[v] >= g.years[y]
    ensures EdgeWeight(g, Edge(u, v), boost, penalty, currentYear)
         >= EdgeWeight(g, Edge(x, y), boost, penalty, currentYear)
  {
    RecencyFactorAntitone(boost, Age(currentYear, g.years[v]), Age(currentYear, g.years[y]));
  }

  /** The derived graph: the nodes the graph library creates while adding the weighted
      edges, and one weight per citation. */
  datatype WeightedGraph = WeightedGraph(nodes: set<PaperId>, weights: map<Edge, real>)

  /** The endpoints of the citations, i.e. the papers incident to some edge. */
  function Endpoints(edges: set<Edge>): set<PaperId> {
    (set e | e in edges :: e.citing) + (set e | e in edges :: e.cited)
  }

  /** Lines 59-75 of `weighted_pagerank`: the weighted graph has exactly the citations as
      edges, and only papers incident to a citation as nodes; a paper without citations
      in either direction is not part of it and so gets no score. */
  function BuildWeightedGraph(g: Network, boost: real, penalty: real, currentYear: int): (w: WeightedGraph)
    ensures w.weights.Keys == g.edges
    ensures forall e :: e in g.edges ==> e.citing in w.nodes && e.cited in w.nodes
    ensures forall p :: p in w.nodes ==> exists e :: e in g.edges && (e.citing == p || e.cited == p)
    ensures Valid(g) ==> forall p :: p in w.nodes ==> p in g.nodes
    ensures g.edges == {} ==> w.nodes == {} && w.weights == map[]
    ensures forall e :: e in g.edges ==> w.weights[e] == EdgeWeight(g, e, boost, penalty, currentYear)
    ensures 0.0 <= boost && 0.0 < penalty ==> forall e :: e in w.weights ==> w.weights[e] > 0.0
  {
    WeightedGraph(Endpoints(g.edges), map e | e in g.edges :: EdgeWeight(g, e, boost, penalty, currentYear))
  }
}

=== FILE: wrappers.dfy ===
/** Optional values: `None` stands for Python's `None` (a missing key or argument). */
module Wrappers {

  datatype Option<+T> = None | Some(value: T) {

    /** The wrapped value, or `default` when there is none (Python's `d.get(key, default)`). */
    function GetOr(default: T): T {
      match this
      case Some(v) => v
      case None => default
    }
  }
}
